=== FILE: README.md ===
# karyopype, modelled in Dafny

karyopype draws a karyotype-style plot of a genome. Each chromosome is a horizontal bar,
stacked top to bottom in the order of the genome's chromosome-size table. Optional genomic
regions (a BED-like file or DataFrame) are drawn over them in red. This project models
the bookkeeping between the file readers and matplotlib:

- the canonical-chromosome filter;
- the size-table loader (an explicit table, the bundled catalog, or an error);
- the dispatch on the `regions` argument;
- the colour decoration of the size dict;
- the vertical layout of the tracks;
- the grouping of interval rows into one bar collection per chromosome.

The repository holds two diverging copies of this logic, and both are modelled:

- the packaged module (`build/lib/karyopype/karyopype.py`);
- the class-based source (`karyopype/karyopype.py`), with its helper `genomes.py`.

Python values are data here:

- A DataFrame is `Py.Table`: column labels plus rectangular rows of `Py.Value` cells.
- A dict with string keys is `Dicts.Dict`: insertion-ordered entries with distinct keys.
- An argument that may be "anything" is `Py.Obj`: None, str, `PosixPath`, DataFrame, list or other.
- Each raised exception is a `Results.Error`.
- `pd.read_csv` is a `Py.Reader`: a map from (path, separator) to the table it reads.
- `os.listdir` of `data/chromsizes/` is a `ChromSizes.Catalog`: a map from file name to rows.
- What ends up on the axes is a `Plot.Axes`: ideogram bar groups, region bar groups, y ticks and y labels.
- Each bar group is a `Collections.BarGroup`: chromosome, y range, x ranges and face colours.

Modules, in dependency order:

- `Results`: the exceptions.
- `Dicts`: dicts, `d[k] = v`, `Series.to_dict`.
- `Py`: values, DataFrames, `read_csv`, column get/set/delete, `-`.
- `Canonical`: the chromosome-name pattern and the filter.
- `ChromSizes`: the packaged `get_chromsizes`.
- `Genomes`: the helper module's `get_chromsizes`.
- `Regions`: both region dispatches.
- `Layout`: baselines, centres, ticks.
- `Collections`: `chromosome_collections`.
- `Ideogram`: `add_chromsize_colors` and the ideogram table.
- `Plot`: the packaged `add_regions` and `plot_karyopype`.
- `KaryopypeClass`: the `Karyopype` class.

## Where the code and its description differ

The model follows the code in each of these cases:

- **Region tables need exactly the right column count.** A region table is relabelled
  positionally with a full label list. It must have exactly three columns in the packaged
  module and exactly four in the class; any other count raises pandas' `ValueError`
  (`LengthMismatch`). The extra columns are not silently dropped.
- **Unknown region chromosomes raise.** A region row whose chromosome has no track raises
  `KeyError` in `chromosome_collections`; it is not dropped.
- **Missing cells are skipped, not raised on.** `end - start` on a column holding `None`
  gives a missing width for that row instead of a TypeError. When the plain subtraction
  fails, pandas retries on the rows where both cells are present and leaves every other row
  missing, whatever its other cell holds. So only a row whose two cells are both present
  and not both numbers (a tuple, a string) raises. `groupby('chrom')` drops rows whose
  chromosome is missing, so such a row is neither drawn nor looked up in the tracks. A table
  whose chromosomes are all missing has no groups, and its other columns are never read.
- **Lists are not normalised.** A list of region references is "no regions", as every
  other unrecognised input is; the elements are not normalised one by one.
- **The canonical flag is ignored.** The packaged `get_chromsizes` accepts a `cannonical`
  flag but always filters. The helper module never filters.
- **The name pattern admits `|`.** Inside a character class `|` is literal, so
  `chr[0-9|X|Y]+[a|b]?$` admits `|` in the body and as the suffix.
- **The first name is on top.** The layout walks the names from the end, so the first name
  gets the largest baseline, the one drawn at the top. With `[A, B, C]`, A sits at 4, B at 2
  and C at 0.
- **An empty size dict raises.** It transposes to a DataFrame with only an index column and
  a `start` column, and the four ideogram labels do not fit it (`LengthMismatch`).

## Model

| member | source | states |
|---|---|---|
| `Dicts.Get` | build/lib/karyopype/karyopype.py:93 | `d[k]` raises KeyError exactly when `k` is not a key |
| `Dicts.Put` | build/lib/karyopype/karyopype.py:65-66 | after `d[k] = v`, `d[k]` reads `v` and every other key reads as before; an existing key keeps its position and a new key is appended last |
| `Dicts.FromPairsKeys` | build/lib/karyopype/karyopype.py:31 | `Series(values, index=names).to_dict()` has a key exactly for each name in the index |
| `Dicts.FromPairsEntries` | build/lib/karyopype/karyopype.py:39 | every entry of the built dict is one of the (name, value) pairs |
| `Dicts.FromDistinctPairs` | genomes.py:14 | with no repeated name, the dict is exactly the pairs in row order |
| `Dicts.LastPairWins` | genomes.py:20 | with repeated names, a key holds the value of its last row |
| `Py.ReadCsv` | build/lib/karyopype/karyopype.py:49 | reading succeeds exactly for a readable (path, separator); otherwise it raises FileNotFound |
| `Py.Column` | build/lib/karyopype/karyopype.py:94 | `df[l]` exists exactly when `l` is a column label, with one cell per row; otherwise KeyError |
| `Py.Relabel` | build/lib/karyopype/karyopype.py:50 | `df.columns = labels` succeeds exactly when the label count equals the column count and keeps the rows; otherwise LengthMismatch |
| `Py.SetColumn` | build/lib/karyopype/karyopype.py:91 | `df[l] = vals` keeps the columns when `l` is one of them and appends `l` last otherwise, with the row count unchanged |
| `Py.SetColumnReadsBack` | build/lib/karyopype/karyopype.py:91 | after `df[l] = vals`, column `l` reads back `vals` and every other column is unchanged |
| `Py.DropColumn` | build/lib/karyopype/karyopype.py:97-98 | `del df[l]` removes exactly one column when `l` is present, keeps the row count, adds no label, and leaves a table without `l` unchanged; every column with another label reads back the same cells, and a label held by one column is gone afterwards |
| `Py.AppendThenDrop` | build/lib/karyopype/karyopype.py:97-98 | adding a fresh column and deleting it restores the original table |
| `Py.Minus` | build/lib/karyopype/karyopype.py:91 | one row of `end - start`: a row with a missing operand is missing (NaN) whatever the other cell holds; otherwise it is defined exactly on two ints, giving the int that added to `b` is `a`; anything else raises TypeError |
| `Py.MinusAll` | build/lib/karyopype/karyopype.py:91 | the column difference succeeds exactly when every row has a missing cell or two ints, and then agrees with the row difference element by element; otherwise TypeError |
| `Canonical.IsCanonical` | build/lib/karyopype/karyopype.py:14 | the one-pass test of a chromosome name against the filter's pattern; its agreement with the regular expression is the contract of `Canonical.CanonicalMatchesPattern` |
| `Canonical.CanonicalMatchesPattern` | build/lib/karyopype/karyopype.py:14 | the one-pass name check accepts exactly the names the filter's regular expression matches from their start |
| `Canonical.FilterCanonical` | build/lib/karyopype/karyopype.py:12-15 | a row of the input survives exactly when its name is canonical, only canonical rows survive, and every surviving row is a row of the input |
| `Canonical.FilterOne` | build/lib/karyopype/karyopype.py:12-15 | a one-row table keeps its row exactly when the name is canonical and is emptied otherwise |
| `Canonical.FilterAppend` | build/lib/karyopype/karyopype.py:12-15 | the filter keeps the relative order of the rows: filtering a concatenation concatenates the filtered parts |
| `Canonical.FilterKeepsCanonicalTable` | build/lib/karyopype/karyopype.py:12-15 | a table whose names are all canonical passes through unchanged, lengths included |
| `Canonical.FilterIdempotent` | build/lib/karyopype/karyopype.py:12-15 | filtering twice is filtering once |
| `ChromSizes.Stem` | build/lib/karyopype/karyopype.py:26 | `name.split(".")[0]` is the longest dot-free prefix of the name |
| `ChromSizes.DottedSpeciesUnknown` | build/lib/karyopype/karyopype.py:26 | a species name containing '.' is never a known species |
| `ChromSizes.CatalogFileIsKnown` | build/lib/karyopype/karyopype.py:26-36 | a dot-free species whose `<species>.chrom.sizes` file is in the catalog is a known species |
| `ChromSizes.ToSizeDict` | build/lib/karyopype/karyopype.py:31 | every row's name is a key of the size dict, and every entry is some row's name with that row's int length |
| `ChromSizes.SizeDictKeys` | build/lib/karyopype/karyopype.py:31 | the size dict has a key exactly for each row's name |
| `ChromSizes.SizeDictEntries` | build/lib/karyopype/karyopype.py:39 | every entry of the size dict is some row's name with that row's int length |
| `ChromSizes.SizeDictOfDistinctRows` | build/lib/karyopype/karyopype.py:39 | with distinct names, the size dict lists every row in row order |
| `ChromSizes.GetChromSizes` | build/lib/karyopype/karyopype.py:18-41 | a non-string species raises TypeError before any lookup; an explicit table always succeeds; an unknown species without one raises; a known species succeeds exactly when its file is present; every key of a result is canonical, and every entry is the name and int length of a row of the table that was read (the caller's, or the species' catalog file) |
| `ChromSizes.ExplicitTableWins` | build/lib/karyopype/karyopype.py:27-31 | the caller's table wins over any catalog, known species or not, and yields its filtered rows |
| `ChromSizes.CatalogTableUsed` | build/lib/karyopype/karyopype.py:33-37 | without a caller's table, a known species whose file is present gets exactly the size dict of that file's canonical rows |
| `ChromSizes.CanonicalFlagIgnored` | build/lib/karyopype/karyopype.py:18 | the `cannonical` argument has no effect on the result |
| `ChromSizes.CanonicalRowKept` | build/lib/karyopype/karyopype.py:35-39 | every canonical row of a known species' file becomes a key of the result |
| `Genomes.GetChromSizes` | genomes.py:7-21 | an explicit table always succeeds; without one, a species that is not a known string raises UnsupportedSpecies; success from the catalog means the species' file is present; on either path every row of the table read is a key and every entry is some row's name with its int length |
| `Genomes.ExplicitTableUsed` | genomes.py:12-14 | the caller's table becomes the size dict as it is, without filtering |
| `Genomes.ExplicitTableWins` | genomes.py:12-14 | the caller's table wins whatever the species and whatever the catalog |
| `Genomes.EveryRowKept` | genomes.py:17-20 | without filtering, every row of the file, canonical or not, is a key holding its length (the last row wins for a repeated name) |
| `Genomes.ExplicitRowKept` | genomes.py:12-14 | every row of the caller's table, canonical or not, is a key holding its length (the last row wins for a repeated name) |
| `Regions.Relabelled` | build/lib/karyopype/karyopype.py:49-51 | a read table with exactly the label count of columns becomes those labels over the same rows, flagged to draw; a read error or wrong count propagates |
| `Regions.ParseRegions` | build/lib/karyopype/karyopype.py:44-60 | a str, Path or DataFrame yields a table labelled exactly chrom,start,end with skip false (a DataFrame keeps its rows and needs three columns); anything else, None included, comes back unchanged with skip true |
| `Regions.StringAndPathAgree` | build/lib/karyopype/karyopype.py:46-48 | a string and a `PosixPath` naming the same file are parsed alike |
| `Regions.ParsePathRows` | build/lib/karyopype/karyopype.py:46-51 | a path reads space-separated: a missing file raises, a three-column file yields its rows under chrom,start,end, any other width raises LengthMismatch |
| `Regions.ClassRegionInput` | karyopype/karyopype.py:116-126 | a str (read tab-separated) or a DataFrame succeeds exactly when it has four columns, and then yields the same rows under the labels chrom,start,end,width; anything else, a Path included, is "no regions" |
| `Regions.PathSkippedByClass` | karyopype/karyopype.py:116-126 | a Path that the packaged module draws from is "no regions" to the class |
| `Layout.ComputeLayout` | build/lib/karyopype/karyopype.py:116-127 | the reverse walk gives the name `k` places from the end baseline `2k` and centre `2k + 0.5`, for every name of the size dict |
| `Layout.LayoutOf` | build/lib/karyopype/karyopype.py:121-127 | one baseline and one centre per name, each centre half a track above its baseline, and baselines rising strictly along the walk from the end of the list |
| `Layout.LayoutKeys` | build/lib/karyopype/karyopype.py:123-124 | the layout has a baseline for exactly the listed names |
| `Layout.LayoutLookup` | karyopype/karyopype.py:80-91 | the `i`-th of `n` names has baseline `2(n-1-i)` and centre half a unit above it |
| `Layout.TracksDisjoint` | build/lib/karyopype/karyopype.py:123-127 | an earlier name sits at least height plus spacing above a later one, so tracks of height 1 never overlap |
| `Layout.Ticks` | build/lib/karyopype/karyopype.py:153 | the tick list exists exactly when every listed name has a centre, and holds those centres in list order |
| `Layout.TicksFollowListOrder` | build/lib/karyopype/karyopype.py:153-154 | tick `i` is the centre of the `i`-th name, and ticks strictly decrease along the list |
| `Collections.DistinctValues` | build/lib/karyopype/karyopype.py:92 | the group keys are distinct and are exactly the values occurring in the chrom column that are not missing |
| `Collections.GroupsOf` | build/lib/karyopype/karyopype.py:92-96 | the groupby loop over the grouped columns succeeds exactly when every present chromosome has a y position (else KeyError), with one group per distinct present chromosome, each keyed by a present chromosome of the rows |
| `Collections.Groups` | build/lib/karyopype/karyopype.py:92-96 | KeyError is the only error; a success needs the chrom column; start, width and colors are needed only once some group is drawn; a table whose chromosomes are all missing gives no groups |
| `Collections.ChromosomeCollections` | build/lib/karyopype/karyopype.py:72-98 | after a complete run the caller's table is as before; a supplied width column is never touched; a failing `end - start` leaves the table as it was; a run stopped later by an exception leaves the table with the computed width column added |
| `Collections.CollectionsReadWidened` | build/lib/karyopype/karyopype.py:88-91 | the groups are read from the table with its width column (given, or end minus start), and no other column changes |
| `Collections.OneGroupPerChromosome` | build/lib/karyopype/karyopype.py:92-93 | one group per distinct chromosome of the rows that is not missing, and none other, each anchored at that chromosome's y with the given height |
| `Collections.GroupRowsInOrder` | build/lib/karyopype/karyopype.py:94-96 | a group's x ranges and colours are its chromosome's (start, width) and colour cells in row order |
| `Collections.BarsNumberTheRows` | build/lib/karyopype/karyopype.py:92-96 | the groups together hold one bar per row whose chromosome is not missing |
| `Collections.EveryRowDrawn` | build/lib/karyopype/karyopype.py:92-96 | every row with a chromosome has its (start, width) in its chromosome's group |
| `Collections.RowsLandInTheirGroup` | build/lib/karyopype/karyopype.py:92-94 | at the level of the grouped columns, one bar per row with a chromosome, each in the group of its chromosome |
| `Collections.UnknownChromosomeRaises` | build/lib/karyopype/karyopype.py:93 | a row whose chromosome is present but has no y position makes the run raise KeyError |
| `Collections.DrawnIffAllChromosomesKnown` | build/lib/karyopype/karyopype.py:92-96 | on a table with the needed columns, empty or not, drawing succeeds exactly when every chromosome that is not missing has a y position |
| `Collections.EndIgnoredWhenWidthGiven` | karyopype/karyopype.py:50-53 | with a width column present, the end column has no influence on the bars |
| `Collections.WidthComputedWhenAbsent` | karyopype/karyopype.py:51-53 | without a width column, widths exist exactly when every row has a missing end or start, or two ints (else TypeError); each width is end minus start, or missing when either is |
| `Collections.GroupsOfDistinctRows` | build/lib/karyopype/karyopype.py:92-96 | rows with distinct known chromosomes give one single-bar group per row, in row order |
| `Ideogram.AddChromsizeColors` | build/lib/karyopype/karyopype.py:63-67 | key set and key order are unchanged, and every value `v` becomes `(v, color)` |
| `Ideogram.IdeogramBase` | build/lib/karyopype/karyopype.py:130-132 | the transposed colour dict fits the four labels exactly when the dict is non-empty; otherwise LengthMismatch |
| `Ideogram.IdeogramRowsAreColoredEntries` | build/lib/karyopype/karyopype.py:130-132 | ideogram row `i` is entry `i` of the decorated dict unpacked, with start 0 |
| `Ideogram.BuildIdeogram` | build/lib/karyopype/karyopype.py:130-135 | an empty dict raises LengthMismatch; the only other error is TypeError; a success has one row per entry under chrom, end, colors, start, width |
| `Ideogram.BuildIdeogramColumns` | build/lib/karyopype/karyopype.py:130-135 | for int or missing lengths the ideogram has one row per chromosome with start 0, width equal to the length, and the colour |
| `Ideogram.IdeogramDrawsEveryChromosome` | build/lib/karyopype/karyopype.py:137-140 | the ideogram draws, in dict order, one bar per chromosome, from 0 to its length, on its own track |
| `Ideogram.NonIntLengthRaises` | build/lib/karyopype/karyopype.py:135 | a length that is neither an int nor missing (a tuple, a string) makes `end - start` raise TypeError |
| `Ideogram.KeepListedKeepsAll` | karyopype/karyopype.py:100-101 | the class's membership filter keeps every ideogram row, since the list comes from the same keys |
| `Ideogram.KeepListed` | karyopype/karyopype.py:101 | the filter keeps the columns, yields only rows of the table, and keeps a row exactly when its chrom cell is a listed name |
| `Ideogram.ClassIdeogramIsBuildIdeogram` | karyopype/karyopype.py:96-103 | the class's filtered ideogram is exactly the packaged module's unfiltered one |
| `Plot.Painted` | build/lib/karyopype/karyopype.py:147 | `df['colors'] = 'red'` sets every row's colour and leaves every other column as it was |
| `Plot.AddRegions` | build/lib/karyopype/karyopype.py:101-156 | the size dict keeps its keys and every value is wrapped with whitesmoke; an empty dict raises; a success has only int or missing lengths, y labels equal to the dict's names in order, and one strictly decreasing tick per name |
| `Plot.IdeogramOnEveryTrack` | build/lib/karyopype/karyopype.py:129-150 | for int or missing lengths the ideogram always draws one whitesmoke bar per chromosome on its track; the plot then succeeds exactly when the regions do, and its overlay is their bars |
| `Plot.NoRegionsDrawsIdeogramOnly` | build/lib/karyopype/karyopype.py:143-150 | with no regions the plot succeeds with an empty overlay |
| `Plot.RegionsDrawnRedOnTheirTracks` | build/lib/karyopype/karyopype.py:145-150 | the overlay holds one bar per region row with a chromosome, each in red on the track of its chromosome |
| `Plot.RegionOffTheTracksRaises` | build/lib/karyopype/karyopype.py:143-150 | a region row on a chromosome without a track makes the region drawing raise KeyError |
| `Plot.UnknownRegionChromosomeRaises` | build/lib/karyopype/karyopype.py:148-150 | a region on a chromosome missing from the size dict makes the whole plot raise KeyError instead of being dropped |
| `Plot.PlotKaryopype` | build/lib/karyopype/karyopype.py:159-190 | a non-string species raises TypeError and an unknown one UnsupportedSpecies; a drawn plot's y labels are distinct canonical names |
| `Plot.KnownSpeciesPlots` | build/lib/karyopype/karyopype.py:171-178 | a known species with its file present plots, and labels every canonical chromosome of the file |
| `KaryopypeClass.New` | karyopype/karyopype.py:16-24 | a non-string species raises TypeError before any lookup; an unknown species raises; a known one succeeds exactly when its file is present, and then stores the species with the size dict the module-level lookup gives for it without a caller's table: every row name of the species' file is a key, and every entry is a row of that file with its int length |
| `KaryopypeClass.ClassAxes` | karyopype/karyopype.py:62-142 | an empty size dict raises; a success has only int or missing lengths, y labels equal to the dict's names in order, and strictly decreasing ticks |
| `KaryopypeClass.ClassDrawsLikePackage` | karyopype/karyopype.py:62-142 | without a str, Path or DataFrame argument, the class draws exactly what the packaged `add_regions` draws |
| `KaryopypeClass.AddRegions` | karyopype/karyopype.py:62-65 | the object's own size dict is rewritten in place: same keys, each value wrapped with whitesmoke |
| `KaryopypeClass.PlotChromosomes` | karyopype/karyopype.py:144-158 | the species and key order of the object survive a plot, and the y labels are its chromosome names |
| `KaryopypeClass.PlotChromosomesIgnoresRegions` | karyopype/karyopype.py:144-158 | the `regions` argument has no effect, and no region is ever drawn |
| `KaryopypeClass.SecondPlotFails` | karyopype/karyopype.py:65-103 | for int lengths the first plot succeeds and a second plot on the same object raises TypeError |
| `KaryopypeClass.NewObjectPlotsOnce` | karyopype/karyopype.py:16-24 | a freshly loaded object plots once, and its second plot raises TypeError |
| `KaryopypeClass.AddRegionsFixed` | karyopype/karyopype.py:62-65 | corrected: the same drawing, and the object is left unchanged |
| `KaryopypeClass.PlotChromosomesFixed` | karyopype/karyopype.py:144-158 | corrected: passes its own regions on and leaves the object unchanged |
| `KaryopypeClass.FixedPlotRepeatable` | karyopype/karyopype.py:144-158 | corrected: plotting again gives the same drawing, and a plot without regions succeeds |
| `KaryopypeClass.FixedPlotDrawsRegions` | karyopype/karyopype.py:116-136 | corrected: a DataFrame passed to the plot is drawn, one red bar per row with a chromosome, on its chromosome's track |

## Left out

- Rendering is not modelled: matplotlib figures, `BrokenBarHCollection`, `ax.add_collection`,
  `axis("tight")`, titles, axis labels, `plt.show` and `savefig`. The model records what
  would be put on the axes instead.
- Bars added to the axes before an exception are not modelled: a raising plot is just the error.
- The x-axis Mbp formatter is left out; it is float division for display only.
- The `gene_ybase` track is computed and never used, so it is left out.
- The demo at the bottom of `karyopype/karyopype.py` runs on import; it is left out except
  as `KaryopypeClass.NewObjectPlotsOnce`.
- `setup.py` is packaging metadata and is not modelled.
- File and directory I/O is not modelled: `read_csv` is a given map, and `os.listdir` is the
  catalog's file names. A missing `data/chromsizes/` directory is not modelled.
- The caller's `chromsizes` override is taken as the rows it reads. Failing to read that
  file is not modelled.
- Size tables are rows of (string name, int length). pandas type inference on other cell
  contents is not modelled.
- Python's `$` also matches before one trailing newline. `Canonical.IsCanonical` does not
  admit `"chr1\n"`; names are taken without line terminators.
- Collections.ChromosomeCollections: groups come in first-appearance order, but pandas'
  `groupby` sorts its keys. Only the set of groups and the contents of each group reflect
  the source.
- Ideogram.IdeogramDrawsEveryChromosome: the i-th group it names is the dict's i-th entry;
  with pandas' sorted group keys only the set of groups and each group's bar hold.
- Plot.IdeogramOnEveryTrack: the i-th ideogram group it names is the dict's i-th entry; with
  pandas' sorted group keys only the set of groups and each group's bar hold.
- Collections.GroupsOfDistinctRows: the groups follow the rows in row order; with pandas'
  sorted group keys only the set of groups and each group's single bar hold.
- Missing values are one value, `None`. pandas' NaN, its float columns and the float
  widths that NaN arithmetic yields are not told apart from it.
- Collections.UnknownChromosomeRaises: the KeyError carries no key. Which missing
  chromosome is reported depends on pandas' group order.
- Plot.AddRegions: relabelling a caller's DataFrame in place is not modelled, and neither
  is `rdf['colors'] = 'red'` on it. The returned `Plotted` keeps only the decorated size dict.
- KaryopypeClass.AddRegions: relabelling the caller's DataFrame in place
  (karyopype/karyopype.py:123) is not modelled. The caller's table is read, not rewritten;
  `Regions.ClassRegionInput` returns the relabelled copy. Relabelling twice gives the same
  four labels, so a repeated call with the same table draws the same bars.
- Duplicate column labels in a region table are not modelled; columns are looked up by first match.

## Findings

| source | as written | input that shows it | evidently intended | confidence | as-written member | corrected member |
|---|---|---|---|---|---|---|
| karyopype/karyopype.py:65 | `add_regions` decorates `self.chromsizes` itself with `(length, "whitesmoke")` | `kp = Karyopype("hg19"); kp.plot_chromosomes(); kp.plot_chromosomes()`: the second call's `end - start` subtracts 0 from a tuple and raises TypeError | decorate a copy, so that the object can be plotted any number of times | not executed | `KaryopypeClass.SecondPlotFails` | `KaryopypeClass.FixedPlotRepeatable` |
| karyopype/karyopype.py:158 | `plot_chromosomes` calls `add_regions(ax=ax, regions=None)` | `kp.plot_chromosomes(regions=df)` with a four-column DataFrame `df` draws no region | pass `regions=regions` on | not executed | `KaryopypeClass.PlotChromosomesIgnoresRegions` | `KaryopypeClass.FixedPlotDrawsRegions` |

=== FILE: canonical.dfy ===
/** Which chromosome names count as canonical: the names matched, from their start, by the
    regular expression `chr[0-9|X|Y]+[a|b]?$`. Inside a character class `|` is an ordinary
    character, so the body admits digits, `X`, `Y` and `|`, and the suffix `a`, `|` or `b`. */
module Canonical {

  /** A member of the class `[0-9|X|Y]`. */
  predicate IsBodyChar(c: char) {
    ('0' <= c <= '9') || c == '|' || c == 'X' || c == 'Y'
  }

  /** A member of the class `[a|b]`. */
  predicate IsSuffixChar(c: char) {
    c == 'a' || c == '|' || c == 'b'
  }

  predicate AllBody(s: string) {
    forall i | 0 <= i < |s| :: IsBodyChar(s[i])
  }

  /** What `[a|b]?$` accepts: nothing, or one suffix character. */
  predicate IsOptionalSuffix(s: string) {
    |s| == 0 || (|s| == 1 && IsSuffixChar(s[0]))
  }

  /** The pattern read as a regular expression: `chr`, then a non-empty run of body
      characters, then an optional suffix character, then the end of the name. */
  ghost predicate MatchesPattern(name: string) {
    && |name| >= 3 && name[..3] == "chr"
    && exists k | 1 <= k <= |name| - 3 ::
         AllBody(name[3..][..k]) && IsOptionalSuffix(name[3..][k..])
  }

  /** The same language decided in one pass: after `chr`, every character but the last is a
      body character, and the last is a body character or (after at least one body
      character) `a` or `b`. */
  predicate IsCanonical(name: string) {
    && |name| >= 4 && name[..3] == "chr"
    && (forall i | 3 <= i < |name| - 1 :: IsBodyChar(name[i]))
    && (IsBodyChar(name[|name| - 1])
        || (|name| >= 5 && (name[|name| - 1] == 'a' || name[|name| - 1] == 'b')))
  }

  /** The one-pass check accepts exactly the names the regular expression matches. */
  lemma CanonicalMatchesPattern(name: string)
    ensures IsCanonical(name) <==> MatchesPattern(name)
  {
    if IsCanonical(name) {
      var rest := name[3..];
      var n := |rest|;
      if IsBodyChar(rest[n - 1]) {
        assert AllBody(rest[..n]) by {
          forall i | 0 <= i < n ensures IsBodyChar(rest[..n][i]) {
            assert rest[..n][i] == name[3 + i];
          }
        }
        assert IsOptionalSuffix(rest[n..]);
      } else {
        var body := rest[..n - 1];
        assert AllBody(body) by {
          forall i | 0 <= i < |body| ensures IsBodyChar(body[i]) {
            assert body[i] == name[3 + i];
          }
        }
        assert IsOptionalSuffix(rest[n - 1..]) by {
          assert rest[n - 1..] == [rest[n - 1]];
        }
      }
    }
    if MatchesPattern(name) {
      var rest := name[3..];
      var k :| 1 <= k <= |rest| && AllBody(rest[..k]) && IsOptionalSuffix(rest[k..]);
      forall i | 3 <= i < |name| - 1 ensures IsBodyChar(name[i]) {
        assert i - 3 < k;
        assert rest[..k][i - 3] == name[i];
      }
      if k == |rest| {
        assert rest[..k][k - 1] == name[|name| - 1];
      } else {
        assert rest[k..][0] == name[|name| - 1];
      }
    }
  }

  /** One row of a chromosome-size table: name and length in base pairs. */
  datatype SizeRow = SizeRow(name: string, length: int)

  /** `filter_cannonical`: keep the rows with canonical names, in their order. */
  function FilterCanonical(rows: seq<SizeRow>): (kept: seq<SizeRow>)
    ensures forall r | r in kept :: IsCanonical(r.name)
    ensures forall r | r in kept :: r in rows
    ensures forall r | r in rows :: r in kept <==> IsCanonical(r.name)
    ensures |kept| <= |rows|
    decreases |rows|
  {
    if |rows| == 0 then []
    else
      var front := FilterCanonical(rows[..|rows| - 1]);
      var last := rows[|rows| - 1];
      assert forall r | r in rows :: r in rows[..|rows| - 1] || r == last by {
        assert rows == rows[..|rows| - 1] + [last];
      }
      if IsCanonical(last.name) then front + [last] else front
  }

  /** A single row is kept exactly when its name is canonical. */
  lemma FilterOne(row: SizeRow)
    ensures FilterCanonical([row]) == if IsCanonical(row.name) then [row] else []
  {
    assert [row][..0] == [];
  }

  /** Filtering a concatenation filters each part and keeps their order. */
  lemma {:induction false} FilterAppend(a: seq<SizeRow>, b: seq<SizeRow>)
    ensures FilterCanonical(a + b) == FilterCanonical(a) + FilterCanonical(b)
    decreases |b|
  {
    if |b| > 0 {
      var b' := b[..|b| - 1];
      FilterAppend(a, b');
      assert (a + b)[..|a + b| - 1] == a + b';
    } else {
      assert a + b == a;
    }
  }

  /** A table that is already canonical passes through unchanged; so filtering twice is
      filtering once. */
  lemma {:induction false} FilterKeepsCanonicalTable(rows: seq<SizeRow>)
    requires forall i | 0 <= i < |rows| :: IsCanonical(rows[i].name)
    ensures FilterCanonical(rows) == rows
    decreases |rows|
  {
    if |rows| > 0 {
      FilterKeepsCanonicalTable(rows[..|rows| - 1]);
      assert rows[..|rows| - 1] + [rows[|rows| - 1]] == rows;
    }
  }

  lemma {:induction false} FilterIdempotent(rows: seq<SizeRow>)
    ensures FilterCanonical(FilterCanonical(rows)) == FilterCanonical(rows)
  {
    var kept := FilterCanonical(rows);
    assert forall i | 0 <= i < |kept| :: IsCanonical(kept[i].name) by {
      forall i | 0 <= i < |kept| ensures IsCanonical(kept[i].name) {
        assert kept[i] in kept;
      }
    }
    FilterKeepsCanonicalTable(kept);
  }
}

=== FILE: chromsizes.dfy ===
/** Loading a chromosome-size table, as the packaged module's `get_chromsizes` does it:
    reject a non-string species, prefer an explicit table, else look the species up in the
    bundled catalog; keep canonical names only. */
module ChromSizes {
  import opened Results
  import opened Dicts
  import opened Py
  import opened Canonical

  /** The bundled `data/chromsizes/` directory: each file name with the rows it holds. */
  type Catalog = map<string, seq<SizeRow>>

  /** `name.split(".")[0]`: the file name up to its first '.'. */
  function Stem(fileName: string): (s: string)
    ensures '.' !in s
    ensures s <= fileName
    ensures |s| < |fileName| ==> fileName[|s|] == '.'
  {
    if |fileName| == 0 || fileName[0] == '.' then ""
    else [fileName[0]] + Stem(fileName[1..])
  }

  /** The species the catalog offers: the stem of every file in it. */
  function SpeciesNames(catalog: Catalog): set<string> {
    set f | f in catalog :: Stem(f)
  }

  /** The catalog file read for a known species. */
  function CatalogFile(species: string): string {
    species + ".chrom.sizes"
  }

  /** A species name holding a '.' is never among the catalog's species. */
  lemma DottedSpeciesUnknown(catalog: Catalog, species: string)
    requires '.' in species
    ensures species !in SpeciesNames(catalog)
  {
  }

  /** A dot-free species whose `.chrom.sizes` file is in the catalog is a known species. */
  lemma CatalogFileIsKnown(catalog: Catalog, species: string)
    requires '.' !in species
    requires CatalogFile(species) in catalog
    ensures species in SpeciesNames(catalog)
  {
    StemBeforeDot(species, ".chrom.sizes");
  }

  lemma {:induction false} StemBeforeDot(head: string, tail: string)
    requires '.' !in head
    requires |tail| > 0 && tail[0] == '.'
    ensures Stem(head + tail) == head
  {
    if |head| > 0 {
      StemBeforeDot(head[1..], tail);
      assert (head + tail)[1..] == head[1..] + tail;
    }
  }

  /** A size-dict entry that is some row's name with that row's int length. */
  predicate FromRow(entry: (string, Value), rows: seq<SizeRow>) {
    exists j | 0 <= j < |rows| :: entry == (rows[j].name, VInt(rows[j].length))
  }

  /** `pd.Series(df[1].values, index=df[0]).to_dict()`: name to length, one assignment per
      row, so every row's name is a key and every entry comes from a row. */
  function ToSizeDict(rows: seq<SizeRow>): (d: Dict<Value>)
    ensures forall i | 0 <= i < |rows| :: rows[i].name in Keys(d)
    ensures forall i | 0 <= i < |d| :: FromRow(d[i], rows)
  {
    var pairs := seq(|rows|, i requires 0 <= i < |rows| => (rows[i].name, VInt(rows[i].length)));
    FromPairsEntries(pairs);
    var d := FromPairs(pairs);
    assert forall i | 0 <= i < |d| :: FromRow(d[i], rows) by {
      forall i | 0 <= i < |d| ensures FromRow(d[i], rows) {
        var j :| 0 <= j < |pairs| && pairs[j] == d[i];
        assert d[i] == (rows[j].name, VInt(rows[j].length));
      }
    }
    forall i | 0 <= i < |rows| ensures rows[i].name in Keys(d) {
      FromPairsKeys(pairs, rows[i].name);
      assert Keys(pairs)[i] == rows[i].name;
    }
    d
  }

  /** The size dict has a key exactly for each row's name. */
  lemma SizeDictKeys(rows: seq<SizeRow>, k: string)
    ensures Get(ToSizeDict(rows), k).Ok? <==> exists i | 0 <= i < |rows| :: rows[i].name == k
  {
    var pairs := seq(|rows|, i requires 0 <= i < |rows| => (rows[i].name, VInt(rows[i].length)));
    FromPairsKeys(pairs, k);
    if k in Keys(pairs) {
      var i :| 0 <= i < |pairs| && Keys(pairs)[i] == k;
      assert rows[i].name == k;
    }
    if i :| 0 <= i < |rows| && rows[i].name == k {
      assert Keys(pairs)[i] == k;
    }
  }

  /** Every entry of the size dict is a row's name with its int length. */
  lemma SizeDictEntries(rows: seq<SizeRow>)
    ensures forall i | 0 <= i < |ToSizeDict(rows)| ::
              exists j | 0 <= j < |rows| :: ToSizeDict(rows)[i] == (rows[j].name, VInt(rows[j].length))
  {
    var pairs := seq(|rows|, i requires 0 <= i < |rows| => (rows[i].name, VInt(rows[i].length)));
    FromPairsEntries(pairs);
    forall i | 0 <= i < |ToSizeDict(rows)|
      ensures exists j | 0 <= j < |rows| :: ToSizeDict(rows)[i] == (rows[j].name, VInt(rows[j].length))
    {
      var j :| 0 <= j < |pairs| && pairs[j] == ToSizeDict(rows)[i];
      assert ToSizeDict(rows)[i] == (rows[j].name, VInt(rows[j].length));
    }
  }

  /** With distinct names, the size dict lists every row, in row order, with its length. */
  lemma SizeDictOfDistinctRows(rows: seq<SizeRow>)
    requires forall i, j | 0 <= i < j < |rows| :: rows[i].name != rows[j].name
    ensures |ToSizeDict(rows)| == |rows|
    ensures forall i | 0 <= i < |rows| :: ToSizeDict(rows)[i] == (rows[i].name, VInt(rows[i].length))
  {
    var pairs := seq(|rows|, i requires 0 <= i < |rows| => (rows[i].name, VInt(rows[i].length)));
    FromDistinctPairs(pairs);
  }

  /** `get_chromsizes(species, chromsizes, cannonical)`. `chromsizes` is the table read from
      the caller's file, when one is given; `canonical` is accepted and has no effect. */
  function GetChromSizes(species: Obj, chromsizes: Option<seq<SizeRow>>, canonical: bool,
                         catalog: Catalog): (r: Result<Dict<Value>>)
    ensures !species.StrObj? ==> r == Err(TypeError)
    ensures species.StrObj? && chromsizes.Some? ==> r.Ok?
    ensures (species.StrObj? && chromsizes.None? && species.s !in SpeciesNames(catalog))
              ==> r == Err(UnsupportedSpecies)
    ensures (species.StrObj? && chromsizes.None? && species.s in SpeciesNames(catalog))
              ==> (r.Ok? <==> CatalogFile(species.s) in catalog)
    ensures r.Err? && r.error == FileNotFound ==> CatalogFile(species.s) !in catalog
    ensures r.Ok? ==> forall i | 0 <= i < |r.value| :: IsCanonical(r.value[i].0)
    ensures r.Ok? ==> forall i | 0 <= i < |r.value| :: r.value[i].1.VInt?
    ensures (species.StrObj? && chromsizes.Some? && r.Ok?)
              ==> forall i | 0 <= i < |r.value| :: FromRow(r.value[i], chromsizes.value)
    ensures (species.StrObj? && chromsizes.None? && r.Ok?)
              ==> && CatalogFile(species.s) in catalog
                  && forall i | 0 <= i < |r.value| :: FromRow(r.value[i], catalog[CatalogFile(species.s)])
  {
    if !species.StrObj? then Err(TypeError)
    else
      var table :=
        if chromsizes.Some? then Ok(chromsizes.value)
        else if species.s !in SpeciesNames(catalog) then Err(UnsupportedSpecies)
        else if CatalogFile(species.s) in catalog then Ok(catalog[CatalogFile(species.s)])
        else Err(FileNotFound);
      if table.Err? then Err(table.error)
      else
        var kept := FilterCanonical(table.value);
        var d := ToSizeDict(kept);
        assert forall i | 0 <= i < |d| :: IsCanonical(d[i].0) && d[i].1.VInt? && FromRow(d[i], table.value) by {
          forall i | 0 <= i < |d| ensures IsCanonical(d[i].0) && d[i].1.VInt? && FromRow(d[i], table.value) {
            assert FromRow(d[i], kept);
            var j :| 0 <= j < |kept| && d[i] == (kept[j].name, VInt(kept[j].length));
            assert kept[j] in kept;
            var k :| 0 <= k < |table.value| && table.value[k] == kept[j];
          }
        }
        Ok(d)
  }

  /** The table given by the caller wins over the catalog, known species or not. */
  lemma ExplicitTableWins(species: string, chromsizes: seq<SizeRow>, canonical: bool,
                          catalog: Catalog, other: Catalog)
    ensures GetChromSizes(StrObj(species), Some(chromsizes), canonical, catalog)
         == GetChromSizes(StrObj(species), Some(chromsizes), canonical, other)
         == Ok(ToSizeDict(FilterCanonical(chromsizes)))
  {
  }

  /** Without a table from the caller, a known species whose file is in the catalog gets
      the canonical rows of that file, as a name-to-length dict. */
  lemma CatalogTableUsed(species: string, canonical: bool, catalog: Catalog)
    requires species in SpeciesNames(catalog)
    requires CatalogFile(species) in catalog
    ensures GetChromSizes(StrObj(species), None, canonical, catalog)
         == Ok(ToSizeDict(FilterCanonical(catalog[CatalogFile(species)])))
  {
  }

  /** The `cannonical` flag changes nothing: the filter always runs. */
  lemma CanonicalFlagIgnored(species: Obj, chromsizes: Option<seq<SizeRow>>, catalog: Catalog)
    ensures GetChromSizes(species, chromsizes, true, catalog)
         == GetChromSizes(species, chromsizes, false, catalog)
  {
  }

  /** A canonical row with a name of its own in the catalog file appears, with its length. */
  lemma CanonicalRowKept(species: string, catalog: Catalog, i: nat)
    requires species in SpeciesNames(catalog)
    requires CatalogFile(species) in catalog
    requires i < |catalog[CatalogFile(species)]|
    requires IsCanonical(catalog[CatalogFile(species)][i].name)
    ensures GetChromSizes(StrObj(species), None, true, catalog).Ok?
    ensures Get(GetChromSizes(StrObj(species), None, true, catalog).value,
                catalog[CatalogFile(species)][i].name).Ok?
  {
    var rows := catalog[CatalogFile(species)];
    var kept := FilterCanonical(rows);
    assert rows[i] in rows;
    var j :| 0 <= j < |kept| && kept[j] == rows[i];
    SizeDictKeys(kept, rows[i].name);
  }
}

=== FILE: collections.dfy ===
/** `chromosome_collections`: one horizontal bar group per chromosome found in a table,
    anchored at that chromosome's baseline. Both copies of the code share this function. */
module Collections {
  import opened Results
  import opened Dicts
  import opened Py

  /** A `BrokenBarHCollection`: its chromosome, its (y, height) band, its (start, width)
      bars and their face colours. */
  datatype BarGroup = BarGroup(chrom: Value, yrange: (int, int), xranges: seq<(Value, Value)>,
                               colors: seq<Value>)

  /** The groups (or the error that stopped them) and the table as the caller sees it after. */
  datatype Drawn = Drawn(groups: Result<seq<BarGroup>>, after: Table)

  /** The distinct values of a column in order of first appearance: the keys of `groupby`,
      which leaves out missing keys (`dropna=True`). */
  function DistinctValues(xs: seq<Value>): (ks: seq<Value>)
    ensures Distinct(ks)
    ensures forall x :: x in ks <==> x in xs && !x.VNone?
    decreases |xs|
  {
    if |xs| == 0 then []
    else
      var ks := DistinctValues(xs[..|xs| - 1]);
      var x := xs[|xs| - 1];
      assert xs == xs[..|xs| - 1] + [x];
      if x in ks || x.VNone? then ks else ks + [x]
  }

  /** How many cells of a column are not missing: the rows `groupby` keeps. */
  function Present(xs: seq<Value>): nat
    decreases |xs|
  {
    if |xs| == 0 then 0
    else Present(xs[..|xs| - 1]) + (if xs[|xs| - 1].VNone? then 0 else 1)
  }

  /** No cell is present exactly when every cell is missing. */
  lemma {:induction false} PresentZero(xs: seq<Value>)
    ensures Present(xs) == 0 <==> forall i | 0 <= i < |xs| :: xs[i].VNone?
    decreases |xs|
  {
    if |xs| > 0 {
      var front := xs[..|xs| - 1];
      PresentZero(front);
      assert forall i | 0 <= i < |front| :: front[i] == xs[i];
    }
  }

  /** The entries of `vals` on the rows whose key equals `key`, in row order. */
  function Select<T>(keys: seq<Value>, key: Value, vals: seq<T>): seq<T>
    requires |keys| == |vals|
    decreases |keys|
  {
    if |keys| == 0 then []
    else
      var r := Select(keys[..|keys| - 1], key, vals[..|vals| - 1]);
      if keys[|keys| - 1] == key then r + [vals[|vals| - 1]] else r
  }

  /** `y_positions[chrom]`: the dict has string keys, so a cell of another kind is missing. */
  function YOf(y: Dict<int>, chrom: Value): (r: Result<int>)
    ensures r.Ok? <==> chrom.VStr? && chrom.s in Keys(y)
  {
    if chrom.VStr? then Get(y, chrom.s) else Err(KeyError)
  }

  function Zip(xs: seq<Value>, ys: seq<Value>): (r: seq<(Value, Value)>)
    requires |xs| == |ys|
    ensures |r| == |xs|
  {
    seq(|xs|, i requires 0 <= i < |xs| => (xs[i], ys[i]))
  }

  /** The group of each distinct chromosome: its band and its rows' bars and colours.
      Rows with a missing chromosome belong to no group. */
  function GroupsOf(chroms: seq<Value>, xr: seq<(Value, Value)>, colors: seq<Value>,
                    y: Dict<int>, height: int): (r: Result<seq<BarGroup>>)
    requires |chroms| == |xr| == |colors|
    ensures r.Ok? <==> forall i | 0 <= i < |chroms| :: !chroms[i].VNone? ==> YOf(y, chroms[i]).Ok?
    ensures r.Err? ==> r.error == KeyError
    ensures r.Ok? ==> |r.value| == |DistinctValues(chroms)|
    ensures r.Ok? ==> forall j | 0 <= j < |r.value| :: r.value[j].chrom in chroms && !r.value[j].chrom.VNone?
  {
    if exists i | 0 <= i < |chroms| :: !chroms[i].VNone? && YOf(y, chroms[i]).Err? then Err(KeyError)
    else
      var keys := DistinctValues(chroms);
      assert forall j | 0 <= j < |keys| :: YOf(y, keys[j]).Ok? by {
        forall j | 0 <= j < |keys| ensures YOf(y, keys[j]).Ok? {
          assert keys[j] in keys;
          var i :| 0 <= i < |chroms| && chroms[i] == keys[j];
        }
      }
      Ok(seq(|keys|, j requires 0 <= j < |keys| =>
        BarGroup(keys[j], (YOf(y, keys[j]).value, height),
                 Select(chroms, keys[j], xr), Select(chroms, keys[j], colors))))
  }

  /** The `for chrom, group in df.groupby('chrom')` loop, for a table that has its widths:
      `groupby` needs the chrom column even for an empty table; the other columns are read
      from the first group on, so a table whose chromosomes are all missing needs none. */
  function Groups(t: Table, y: Dict<int>, height: int): (r: Result<seq<BarGroup>>)
    ensures r.Err? ==> r.error == KeyError
    ensures r.Ok? ==> Label("chrom") in t.columns
    ensures (r.Ok? && |r.value| > 0) ==>
              (Label("start") in t.columns && Label("width") in t.columns && Label("colors") in t.columns)
    ensures (Label("chrom") in t.columns
             && forall i | 0 <= i < |t.rows| :: Column(t, Label("chrom")).value[i].VNone?)
              ==> r == Ok([])
  {
    PresentZero(if Label("chrom") in t.columns then Column(t, Label("chrom")).value else []);
    if Label("chrom") !in t.columns then Err(KeyError)
    else if Present(Column(t, Label("chrom")).value) == 0 then Ok([])
    else if !(Label("start") in t.columns && Label("width") in t.columns
              && Label("colors") in t.columns) then Err(KeyError)
    else
      GroupsOf(Column(t, Label("chrom")).value,
               Zip(Column(t, Label("start")).value, Column(t, Label("width")).value),
               Column(t, Label("colors")).value, y, height)
  }

  /** `df['end'] - df['start']`. */
  function Widths(t: Table): Result<seq<Value>> {
    match (Column(t, Label("end")), Column(t, Label("start")))
    case (Ok(ends), Ok(starts)) => MinusAll(ends, starts)
    case _ => Err(KeyError)
  }

  /** The widths the bars are drawn with: a `width` column when the table has one, else the
      computed `end - start`. */
  function DrawnWidths(t: Table): Result<seq<Value>> {
    if Label("width") in t.columns then Column(t, Label("width")) else Widths(t)
  }

  /** `chromosome_collections(df, y_positions, height)`, run to the end or to the exception
      that aborts it. A `width` column it adds is deleted only when the loop finishes. */
  function ChromosomeCollections(df: Table, y: Dict<int>, height: int): (d: Drawn)
    ensures d.groups.Ok? ==> d.after == df
    ensures Label("width") in df.columns ==> d.after == df
    ensures (d.groups.Err? && d.after != df)
              ==> d.after.columns == df.columns + [Label("width")] && Widths(df).Ok?
    ensures (Label("width") !in df.columns && Widths(df).Ok? && d.groups.Err?)
              ==> d.after == SetColumn(df, Label("width"), Widths(df).value)
    ensures (Label("width") !in df.columns && Widths(df).Err?)
              ==> d == Drawn(Err(Widths(df).error), df)
  {
    if Label("width") in df.columns then Drawn(Groups(df, y, height), df)
    else
      match Widths(df)
      case Err(e) => Drawn(Err(e), df)
      case Ok(w) =>
        var wide := SetColumn(df, Label("width"), w);
        var g := Groups(wide, y, height);
        AppendThenDrop(df, Label("width"), w);
        Drawn(g, if g.Ok? then DropColumn(wide, Label("width")) else wide)
  }

  /** The table the groups are read from. */
  function Widened(df: Table): Result<Table> {
    if Label("width") in df.columns then Ok(df)
    else
      match Widths(df)
      case Err(e) => Err(e)
      case Ok(w) => Ok(SetColumn(df, Label("width"), w))
  }

  lemma CollectionsReadWidened(df: Table, y: Dict<int>, height: int)
    ensures Widened(df).Err? ==> ChromosomeCollections(df, y, height).groups == Err(Widened(df).error)
    ensures Widened(df).Ok? ==> ChromosomeCollections(df, y, height).groups == Groups(Widened(df).value, y, height)
    ensures Widened(df).Ok? ==> Column(Widened(df).value, Label("width")) == DrawnWidths(df)
    ensures Widened(df).Ok? ==> forall l | l != Label("width") :: Column(Widened(df).value, l) == Column(df, l)
  {
    if Label("width") !in df.columns && Widths(df).Ok? {
      SetColumnReadsBack(df, Label("width"), Widths(df).value);
    }
  }

  // ---- properties of the grouping ----

  /** A row's entry is among the entries selected for its key. */
  lemma {:induction false} SelectHasRow<T>(keys: seq<Value>, vals: seq<T>, i: nat)
    requires |keys| == |vals|
    requires i < |keys|
    ensures vals[i] in Select(keys, keys[i], vals)
    decreases |keys|
  {
    if i < |keys| - 1 {
      SelectHasRow(keys[..|keys| - 1], vals[..|vals| - 1], i);
    }
  }

  /** Only rows with the key contribute to its selection. */
  lemma {:induction false} SelectOnlyKey<T>(keys: seq<Value>, key: Value, vals: seq<T>)
    requires |keys| == |vals|
    ensures key !in keys ==> Select(keys, key, vals) == []
    ensures forall x | x in Select(keys, key, vals) :: exists i | 0 <= i < |keys| :: keys[i] == key && vals[i] == x
    decreases |keys|
  {
    if |keys| > 0 {
      var n := |keys|;
      SelectOnlyKey(keys[..n - 1], key, vals[..n - 1]);
      var front := Select(keys[..n - 1], key, vals[..n - 1]);
      assert forall x | x in front ::
        exists i | 0 <= i < n :: keys[i] == key && vals[i] == x by {
        forall x | x in front
          ensures exists i | 0 <= i < n :: keys[i] == key && vals[i] == x {
          var i :| 0 <= i < n - 1 && keys[..n - 1][i] == key && vals[..n - 1][i] == x;
          assert keys[i] == key && vals[i] == x;
        }
      }
      if key !in keys {
        assert key !in keys[..n - 1];
      }
    }
  }

  /** When every key occurs once, a key selects exactly its own row. */
  lemma {:induction false} SelectUniqueKey<T>(keys: seq<Value>, vals: seq<T>, i: nat)
    requires |keys| == |vals|
    requires Distinct(keys)
    requires i < |keys|
    ensures Select(keys, keys[i], vals) == [vals[i]]
    decreases |keys|
  {
    var n := |keys|;
    if i < n - 1 {
      SelectUniqueKey(keys[..n - 1], vals[..n - 1], i);
    } else {
      SelectOnlyKey(keys[..n - 1], keys[i], vals[..n - 1]);
    }
  }

  /** How many rows the keys `ks` select between them. */
  function TotalSelected<T>(keys: seq<Value>, ks: seq<Value>, vals: seq<T>): nat
    requires |keys| == |vals|
  {
    if |ks| == 0 then 0 else |Select(keys, ks[0], vals)| + TotalSelected(keys, ks[1..], vals)
  }

  lemma {:induction false} TotalSelectedSnoc<T>(keys: seq<Value>, ks: seq<Value>, k: Value, vals: seq<T>)
    requires |keys| == |vals|
    ensures TotalSelected(keys, ks + [k], vals) == TotalSelected(keys, ks, vals) + |Select(keys, k, vals)|
  {
    if |ks| > 0 {
      assert (ks + [k])[1..] == ks[1..] + [k];
      TotalSelectedSnoc(keys, ks[1..], k, vals);
    }
  }

  /** One more row adds one to the total of a distinct key list that holds its key. */
  lemma {:induction false} TotalSelectedNewRow<T>(keys: seq<Value>, ks: seq<Value>, vals: seq<T>)
    requires |keys| == |vals| && |keys| > 0
    requires Distinct(ks)
    ensures TotalSelected(keys, ks, vals)
            == TotalSelected(keys[..|keys| - 1], ks, vals[..|vals| - 1])
               + (if keys[|keys| - 1] in ks then 1 else 0)
  {
    if |ks| > 0 {
      TotalSelectedNewRow(keys, ks[1..], vals);
      assert keys[|keys| - 1] in ks <==> keys[|keys| - 1] == ks[0] || keys[|keys| - 1] in ks[1..];
      assert ks[0] !in ks[1..];
    }
  }

  /** The groups of the distinct keys hold every row with a key exactly once between them. */
  lemma {:induction false} DistinctKeysSelectAllRows<T>(keys: seq<Value>, vals: seq<T>)
    requires |keys| == |vals|
    ensures TotalSelected(keys, DistinctValues(keys), vals) == Present(keys)
    decreases |keys|
  {
    if |keys| > 0 {
      var n := |keys|;
      var front := DistinctValues(keys[..n - 1]);
      var c := keys[n - 1];
      DistinctKeysSelectAllRows(keys[..n - 1], vals[..n - 1]);
      TotalSelectedNewRow(keys, front, vals);
      if c !in front && !c.VNone? {
        TotalSelectedSnoc(keys, front, c, vals);
        SelectOnlyKey(keys[..n - 1], c, vals[..n - 1]);
        assert Select(keys, c, vals) == [vals[n - 1]];
        assert TotalSelected(keys, front + [c], vals) == TotalSelected(keys, front, vals) + 1;
      }
    }
  }

  /** The number of bars across a list of groups. */
  function BarCount(gs: seq<BarGroup>): nat {
    if |gs| == 0 then 0 else |gs[0].xranges| + BarCount(gs[1..])
  }

  lemma {:induction false} BarCountIsTotal<T>(gs: seq<BarGroup>, chroms: seq<Value>, ks: seq<Value>,
                                               xr: seq<(Value, Value)>)
    requires |chroms| == |xr| && |gs| == |ks|
    requires forall j | 0 <= j < |gs| :: gs[j].xranges == Select(chroms, ks[j], xr)
    ensures BarCount(gs) == TotalSelected(chroms, ks, xr)
  {
    if |gs| > 0 {
      BarCountIsTotal<T>(gs[1..], chroms, ks[1..], xr);
    }
  }

  /** The groups, spelled out. */
  lemma GroupsOfUnfold(chroms: seq<Value>, xr: seq<(Value, Value)>, colors: seq<Value>,
                       y: Dict<int>, height: int, gs: seq<BarGroup>)
    requires |chroms| == |xr| == |colors|
    requires GroupsOf(chroms, xr, colors, y, height) == Ok(gs)
    ensures forall i | 0 <= i < |chroms| :: !chroms[i].VNone? ==> YOf(y, chroms[i]).Ok?
    ensures |gs| == |DistinctValues(chroms)|
    ensures forall j | 0 <= j < |gs| ::
              && gs[j].chrom == DistinctValues(chroms)[j]
              && YOf(y, gs[j].chrom) == Ok(gs[j].yrange.0) && gs[j].yrange.1 == height
              && gs[j].xranges == Select(chroms, gs[j].chrom, xr)
              && gs[j].colors == Select(chroms, gs[j].chrom, colors)
  {
    var keys := DistinctValues(chroms);
    assert forall i | 0 <= i < |chroms| :: !chroms[i].VNone? ==> YOf(y, chroms[i]).Ok?;
    forall j | 0 <= j < |keys| ensures YOf(y, keys[j]).Ok? {
      assert keys[j] in keys;
      var i :| 0 <= i < |chroms| && chroms[i] == keys[j];
    }
    var all := seq(|keys|, j requires 0 <= j < |keys| =>
        BarGroup(keys[j], (YOf(y, keys[j]).value, height),
                 Select(chroms, keys[j], xr), Select(chroms, keys[j], colors)));
    assert gs == all;
  }

  lemma GroupsUnfold(t: Table, y: Dict<int>, height: int, gs: seq<BarGroup>)
    requires Groups(t, y, height) == Ok(gs)
    requires Label("chrom") in t.columns && Present(Column(t, Label("chrom")).value) > 0
    ensures Column(t, Label("chrom")).Ok? && Column(t, Label("start")).Ok?
    ensures Column(t, Label("width")).Ok? && Column(t, Label("colors")).Ok?
    ensures GroupsOf(Column(t, Label("chrom")).value,
                     Zip(Column(t, Label("start")).value, Column(t, Label("width")).value),
                     Column(t, Label("colors")).value, y, height) == Ok(gs)
  {
  }

  /** A table with a present chromosome and the columns read is grouped from its columns. */
  lemma GroupsReadColumns(t: Table, y: Dict<int>, height: int, i: nat)
    requires Label("chrom") in t.columns && Label("start") in t.columns
    requires Label("width") in t.columns && Label("colors") in t.columns
    requires i < |t.rows| && !Column(t, Label("chrom")).value[i].VNone?
    ensures Groups(t, y, height)
         == GroupsOf(Column(t, Label("chrom")).value,
                     Zip(Column(t, Label("start")).value, Column(t, Label("width")).value),
                     Column(t, Label("colors")).value, y, height)
  {
    PresentZero(Column(t, Label("chrom")).value);
  }

  /** What grouping rows yields: one group per distinct chromosome cell that is not
      missing, in a string key of `y`, with that chromosome's rows' bars and colours. */
  lemma GroupsOfFacts(chroms: seq<Value>, xr: seq<(Value, Value)>, colors: seq<Value>,
                      y: Dict<int>, height: int, gs: seq<BarGroup>)
    requires |chroms| == |xr| == |colors|
    requires GroupsOf(chroms, xr, colors, y, height) == Ok(gs)
    ensures forall j, k | 0 <= j < k < |gs| :: gs[j].chrom != gs[k].chrom
    ensures forall i | 0 <= i < |chroms| && !chroms[i].VNone? ::
              exists j | 0 <= j < |gs| :: gs[j].chrom == chroms[i]
    ensures forall j | 0 <= j < |gs| :: gs[j].chrom in chroms
    ensures forall j | 0 <= j < |gs| ::
              gs[j].chrom.VStr? && Get(y, gs[j].chrom.s) == Ok(gs[j].yrange.0)
              && gs[j].yrange.1 == height
    ensures forall j | 0 <= j < |gs| ::
              gs[j].xranges == Select(chroms, gs[j].chrom, xr)
              && gs[j].colors == Select(chroms, gs[j].chrom, colors)
  {
    GroupsOfUnfold(chroms, xr, colors, y, height, gs);
    var keys := DistinctValues(chroms);
    forall i | 0 <= i < |chroms| && !chroms[i].VNone?
      ensures exists j | 0 <= j < |gs| :: gs[j].chrom == chroms[i]
    {
      assert chroms[i] in keys;
      var j :| 0 <= j < |keys| && keys[j] == chroms[i];
      assert gs[j].chrom == chroms[i];
    }
    forall j | 0 <= j < |gs| ensures gs[j].chrom in chroms {
      assert keys[j] in keys;
    }
  }

  /** Drawing succeeds on a table exactly as grouping its widened copy does. */
  lemma CollectionsGroupWidened(df: Table, y: Dict<int>, height: int, gs: seq<BarGroup>)
    requires ChromosomeCollections(df, y, height).groups == Ok(gs)
    ensures Widened(df).Ok?
    ensures Groups(Widened(df).value, y, height) == Ok(gs)
    ensures |Widened(df).value.rows| == |df.rows|
  {
    CollectionsReadWidened(df, y, height);
  }

  /** Grouping a table with widths: one group per distinct chromosome cell, anchored at
      that chromosome's baseline. */
  lemma GroupsOfTable(t: Table, y: Dict<int>, height: int, gs: seq<BarGroup>)
    requires Groups(t, y, height) == Ok(gs)
    ensures Column(t, Label("chrom")).Ok?
    ensures forall j, k | 0 <= j < k < |gs| :: gs[j].chrom != gs[k].chrom
    ensures forall i | 0 <= i < |t.rows| && !Column(t, Label("chrom")).value[i].VNone? ::
              exists j | 0 <= j < |gs| :: gs[j].chrom == Column(t, Label("chrom")).value[i]
    ensures forall j | 0 <= j < |gs| :: gs[j].chrom in Column(t, Label("chrom")).value
    ensures forall j | 0 <= j < |gs| ::
              gs[j].chrom.VStr? && Get(y, gs[j].chrom.s) == Ok(gs[j].yrange.0)
              && gs[j].yrange.1 == height
  {
    if Present(Column(t, Label("chrom")).value) > 0 {
      GroupsUnfold(t, y, height, gs);
      GroupsOfFacts(Column(t, Label("chrom")).value,
                    Zip(Column(t, Label("start")).value, Column(t, Label("width")).value),
                    Column(t, Label("colors")).value, y, height, gs);
    } else {
      PresentZero(Column(t, Label("chrom")).value);
      assert gs == [];
    }
  }

  /** What the groups hold when drawing succeeds: one group per distinct chromosome cell
      that is not missing, anchored at that chromosome's baseline. */
  lemma OneGroupPerChromosome(df: Table, y: Dict<int>, height: int, gs: seq<BarGroup>)
    requires ChromosomeCollections(df, y, height).groups == Ok(gs)
    ensures Column(df, Label("chrom")).Ok? && DrawnWidths(df).Ok?
    ensures forall j, k | 0 <= j < k < |gs| :: gs[j].chrom != gs[k].chrom
    ensures forall i | 0 <= i < |df.rows| && !Column(df, Label("chrom")).value[i].VNone? ::
              exists j | 0 <= j < |gs| :: gs[j].chrom == Column(df, Label("chrom")).value[i]
    ensures forall j | 0 <= j < |gs| :: gs[j].chrom in Column(df, Label("chrom")).value
    ensures forall j | 0 <= j < |gs| ::
              gs[j].chrom.VStr? && Get(y, gs[j].chrom.s) == Ok(gs[j].yrange.0)
              && gs[j].yrange.1 == height
  {
    CollectionsGroupWidened(df, y, height, gs);
    WidenedColumns(df);
    var t := Widened(df).value;
    GroupsOfTable(t, y, height, gs);
    var chroms := Column(df, Label("chrom")).value;
    assert Column(t, Label("chrom")).value == chroms;
    forall i | 0 <= i < |df.rows| && !chroms[i].VNone?
      ensures exists j | 0 <= j < |gs| :: gs[j].chrom == chroms[i]
    {
      var j :| 0 <= j < |gs| && gs[j].chrom == Column(t, Label("chrom")).value[i];
    }
  }

  /** Each group holds its chromosome's rows' (start, width) bars and colours in row order;
      the widths are the table's own `width` column when it has one. */
  lemma GroupRowsInOrder(df: Table, y: Dict<int>, height: int, gs: seq<BarGroup>)
    requires ChromosomeCollections(df, y, height).groups == Ok(gs)
    ensures Column(df, Label("chrom")).Ok? && DrawnWidths(df).Ok?
    ensures |gs| > 0 ==> Column(df, Label("start")).Ok? && Column(df, Label("colors")).Ok?
    ensures |gs| > 0 ==> forall j | 0 <= j < |gs| ::
              gs[j].xranges == Select(Column(df, Label("chrom")).value, gs[j].chrom,
                                      Zip(Column(df, Label("start")).value, DrawnWidths(df).value))
              && gs[j].colors == Select(Column(df, Label("chrom")).value, gs[j].chrom,
                                        Column(df, Label("colors")).value)
  {
    CollectionsGroupWidened(df, y, height, gs);
    var t := Widened(df).value;
    WidenedColumns(df);
    if |gs| > 0 {
      GroupsUnfold(t, y, height, gs);
      GroupsOfUnfold(Column(t, Label("chrom")).value,
                     Zip(Column(t, Label("start")).value, Column(t, Label("width")).value),
                     Column(t, Label("colors")).value, y, height, gs);
    }
  }

  /** Grouping a table with widths: the bars across all groups number the rows with a
      chromosome, and each such row's bar is in its chromosome's group. */
  lemma GroupsHoldEveryRow(t: Table, y: Dict<int>, height: int, gs: seq<BarGroup>)
    requires Groups(t, y, height) == Ok(gs)
    ensures Column(t, Label("chrom")).Ok?
    ensures BarCount(gs) == Present(Column(t, Label("chrom")).value)
    ensures Present(Column(t, Label("chrom")).value) > 0 ==>
              && Column(t, Label("start")).Ok? && Column(t, Label("width")).Ok?
              && forall i | 0 <= i < |t.rows| && !Column(t, Label("chrom")).value[i].VNone? ::
                 exists j | 0 <= j < |gs| ::
                   gs[j].chrom == Column(t, Label("chrom")).value[i]
                   && (Column(t, Label("start")).value[i], Column(t, Label("width")).value[i])
                      in gs[j].xranges
  {
    if Present(Column(t, Label("chrom")).value) > 0 {
      GroupsUnfold(t, y, height, gs);
      var chroms := Column(t, Label("chrom")).value;
      var starts := Column(t, Label("start")).value;
      var widths := Column(t, Label("width")).value;
      var xr := Zip(starts, widths);
      RowsLandInTheirGroup(chroms, xr, Column(t, Label("colors")).value, y, height, gs);
      forall i | 0 <= i < |t.rows| && !chroms[i].VNone?
        ensures exists j | 0 <= j < |gs| :: gs[j].chrom == chroms[i] && (starts[i], widths[i]) in gs[j].xranges
      {
        var j :| 0 <= j < |gs| && gs[j].chrom == chroms[i] && xr[i] in gs[j].xranges;
        assert xr[i] == (starts[i], widths[i]);
      }
    } else {
      assert gs == [];
    }
  }

  /** The bars across all groups number the rows of the table whose chromosome is not
      missing. */
  lemma BarsNumberTheRows(df: Table, y: Dict<int>, height: int, gs: seq<BarGroup>)
    requires ChromosomeCollections(df, y, height).groups == Ok(gs)
    ensures Column(df, Label("chrom")).Ok?
    ensures BarCount(gs) == Present(Column(df, Label("chrom")).value)
  {
    CollectionsGroupWidened(df, y, height, gs);
    WidenedColumns(df);
    GroupsHoldEveryRow(Widened(df).value, y, height, gs);
  }

  /** Every row with a chromosome is drawn: its (start, width) bar is in its chromosome's
      group. */
  lemma EveryRowDrawn(df: Table, y: Dict<int>, height: int, gs: seq<BarGroup>)
    requires ChromosomeCollections(df, y, height).groups == Ok(gs)
    ensures Column(df, Label("chrom")).Ok? && DrawnWidths(df).Ok?
    ensures Present(Column(df, Label("chrom")).value) > 0 ==> Column(df, Label("start")).Ok?
    ensures Present(Column(df, Label("chrom")).value) > 0 ==>
            forall i | 0 <= i < |df.rows| && !Column(df, Label("chrom")).value[i].VNone? ::
              exists j | 0 <= j < |gs| ::
                gs[j].chrom == Column(df, Label("chrom")).value[i]
                && (Column(df, Label("start")).value[i], DrawnWidths(df).value[i]) in gs[j].xranges
  {
    CollectionsGroupWidened(df, y, height, gs);
    WidenedColumns(df);
    var t := Widened(df).value;
    GroupsHoldEveryRow(t, y, height, gs);
    var chroms := Column(df, Label("chrom")).value;
    assert Column(t, Label("chrom")).value == chroms;
    if Present(chroms) > 0 {
      var starts := Column(df, Label("start")).value;
      var widths := DrawnWidths(df).value;
      assert Column(t, Label("start")).value == starts;
      assert Column(t, Label("width")).value == widths;
      forall i | 0 <= i < |df.rows| && !chroms[i].VNone?
        ensures exists j | 0 <= j < |gs| :: gs[j].chrom == chroms[i] && (starts[i], widths[i]) in gs[j].xranges
      {
        var j :| 0 <= j < |gs| && gs[j].chrom == Column(t, Label("chrom")).value[i]
                 && (Column(t, Label("start")).value[i], Column(t, Label("width")).value[i]) in gs[j].xranges;
      }
    }
  }

  /** The widened table reads the same columns as the table, plus the drawn widths. */
  lemma WidenedColumns(df: Table)
    requires Widened(df).Ok?
    ensures Column(Widened(df).value, Label("chrom")) == Column(df, Label("chrom"))
    ensures Column(Widened(df).value, Label("start")) == Column(df, Label("start"))
    ensures Column(Widened(df).value, Label("colors")) == Column(df, Label("colors"))
    ensures Column(Widened(df).value, Label("width")) == DrawnWidths(df)
  {
    if Label("width") !in df.columns {
      SetColumnReadsBack(df, Label("width"), Widths(df).value);
    }
  }

  lemma RowsLandInTheirGroup(chroms: seq<Value>, xr: seq<(Value, Value)>, colors: seq<Value>,
                             y: Dict<int>, height: int, gs: seq<BarGroup>)
    requires |chroms| == |xr| == |colors|
    requires GroupsOf(chroms, xr, colors, y, height) == Ok(gs)
    ensures BarCount(gs) == Present(chroms)
    ensures forall i | 0 <= i < |chroms| && !chroms[i].VNone? ::
              exists j | 0 <= j < |gs| :: gs[j].chrom == chroms[i] && xr[i] in gs[j].xranges
  {
    GroupsOfUnfold(chroms, xr, colors, y, height, gs);
    var keys := DistinctValues(chroms);
    BarCountIsTotal<(Value, Value)>(gs, chroms, keys, xr);
    DistinctKeysSelectAllRows(chroms, xr);
    forall i | 0 <= i < |chroms| && !chroms[i].VNone?
      ensures exists j | 0 <= j < |gs| :: gs[j].chrom == chroms[i] && xr[i] in gs[j].xranges
    {
      assert chroms[i] in keys;
      var j :| 0 <= j < |keys| && keys[j] == chroms[i];
      SelectHasRow(chroms, xr, i);
      assert gs[j].chrom == chroms[i] && xr[i] in gs[j].xranges;
    }
  }

  /** A chromosome that is not a key of `y_positions` raises KeyError; it is never dropped
      silently. (A missing chromosome is dropped by `groupby` before any lookup.) */
  lemma UnknownChromosomeRaises(df: Table, y: Dict<int>, height: int, i: nat)
    requires Widened(df).Ok?
    requires Column(df, Label("chrom")).Ok? && i < |df.rows|
    requires !Column(df, Label("chrom")).value[i].VNone?
    requires YOf(y, Column(df, Label("chrom")).value[i]).Err?
    ensures ChromosomeCollections(df, y, height).groups == Err(KeyError)
  {
    CollectionsReadWidened(df, y, height);
    WidenedColumns(df);
    var t := Widened(df).value;
    var chroms := Column(t, Label("chrom")).value;
    assert chroms[i] == Column(df, Label("chrom")).value[i];
    PresentZero(chroms);
    assert Present(chroms) > 0;
  }

  /** Drawing succeeds exactly when every chromosome that is not missing is a key of
      `y_positions`, for a table with the columns read and widths that can be computed. */
  lemma DrawnIffAllChromosomesKnown(df: Table, y: Dict<int>, height: int)
    requires Widened(df).Ok?
    requires Label("chrom") in df.columns && Label("start") in df.columns
    requires Label("colors") in df.columns
    ensures ChromosomeCollections(df, y, height).groups.Ok?
            <==> forall i | 0 <= i < |df.rows| && !Column(df, Label("chrom")).value[i].VNone? ::
                   YOf(y, Column(df, Label("chrom")).value[i]).Ok?
  {
    CollectionsReadWidened(df, y, height);
    var t := Widened(df).value;
    assert Label("width") in t.columns;
    assert Label("chrom") in t.columns && Label("start") in t.columns && Label("colors") in t.columns;
    var chroms := Column(t, Label("chrom")).value;
    assert chroms == Column(df, Label("chrom")).value;
    PresentZero(chroms);
    if Present(chroms) > 0 {
      assert Groups(t, y, height)
          == GroupsOf(chroms, Zip(Column(t, Label("start")).value, Column(t, Label("width")).value),
                      Column(t, Label("colors")).value, y, height);
    }
  }

  /** When no chromosome repeats or is missing, the groups follow the rows one to one. */
  lemma {:induction false} DistinctValuesOfDistinct(xs: seq<Value>)
    requires Distinct(xs)
    requires forall i | 0 <= i < |xs| :: !xs[i].VNone?
    ensures DistinctValues(xs) == xs
    decreases |xs|
  {
    if |xs| > 0 {
      var n := |xs|;
      DistinctValuesOfDistinct(xs[..n - 1]);
      assert xs[n - 1] !in xs[..n - 1];
      assert xs[..n - 1] + [xs[n - 1]] == xs;
    }
  }

  /** With a `width` column present, the `end` column is never read: changing it changes
      nothing that is drawn. */
  lemma EndIgnoredWhenWidthGiven(df: Table, y: Dict<int>, height: int, ends: seq<Value>)
    requires Label("width") in df.columns && Label("end") in df.columns
    requires |ends| == |df.rows|
    ensures ChromosomeCollections(SetColumn(df, Label("end"), ends), y, height).groups
         == ChromosomeCollections(df, y, height).groups
  {
    var t := SetColumn(df, Label("end"), ends);
    SetColumnReadsBack(df, Label("end"), ends);
    assert Column(t, Label("chrom")) == Column(df, Label("chrom"));
    assert Column(t, Label("start")) == Column(df, Label("start"));
    assert Column(t, Label("width")) == Column(df, Label("width"));
    assert Column(t, Label("colors")) == Column(df, Label("colors"));
  }

  /** Without a `width` column, each bar's width is its row's `end - start`, missing (NaN)
      when either end is missing; a row whose ends are both present and not both ints
      stops the drawing with TypeError. */
  lemma WidthComputedWhenAbsent(df: Table)
    requires Label("width") !in df.columns
    requires Label("end") in df.columns && Label("start") in df.columns
    ensures DrawnWidths(df).Ok?
            <==> forall i | 0 <= i < |df.rows| ::
                   || Column(df, Label("end")).value[i].VNone?
                   || Column(df, Label("start")).value[i].VNone?
                   || (Column(df, Label("end")).value[i].VInt? && Column(df, Label("start")).value[i].VInt?)
    ensures DrawnWidths(df).Err? ==> DrawnWidths(df).error == TypeError
    ensures DrawnWidths(df).Ok? ==>
              forall i | 0 <= i < |df.rows| ::
                DrawnWidths(df).value[i]
                == if Column(df, Label("end")).value[i].VNone? || Column(df, Label("start")).value[i].VNone?
                   then VNone
                   else VInt(Column(df, Label("end")).value[i].i - Column(df, Label("start")).value[i].i)
  {
    var ends := Column(df, Label("end")).value;
    var starts := Column(df, Label("start")).value;
    if DrawnWidths(df).Ok? {
      forall i | 0 <= i < |df.rows|
        ensures DrawnWidths(df).value[i]
                == if ends[i].VNone? || starts[i].VNone? then VNone else VInt(ends[i].i - starts[i].i)
      {
        assert Ok(DrawnWidths(df).value[i]) == Minus(ends[i], starts[i]);
      }
    }
  }

  /** Rows with distinct chromosomes, all known, give one single-bar group per row. */
  lemma GroupsOfDistinctRows(chroms: seq<Value>, xr: seq<(Value, Value)>, colors: seq<Value>,
                             y: Dict<int>, height: int)
    requires |chroms| == |xr| == |colors|
    requires Distinct(chroms)
    requires forall i | 0 <= i < |chroms| :: YOf(y, chroms[i]).Ok?
    ensures GroupsOf(chroms, xr, colors, y, height).Ok?
    ensures |GroupsOf(chroms, xr, colors, y, height).value| == |chroms|
    ensures forall i | 0 <= i < |chroms| ::
              GroupsOf(chroms, xr, colors, y, height).value[i]
              == BarGroup(chroms[i], (YOf(y, chroms[i]).value, height), [xr[i]], [colors[i]])
  {
    assert forall i | 0 <= i < |chroms| :: !chroms[i].VNone? by {
      forall i | 0 <= i < |chroms| ensures !chroms[i].VNone? {
        assert YOf(y, chroms[i]).Ok?;
      }
    }
    DistinctValuesOfDistinct(chroms);
    var gs := GroupsOf(chroms, xr, colors, y, height).value;
    GroupsOfUnfold(chroms, xr, colors, y, height, gs);
    forall i | 0 <= i < |chroms|
      ensures gs[i] == BarGroup(chroms[i], (YOf(y, chroms[i]).value, height), [xr[i]], [colors[i]])
    {
      SelectUniqueKey(chroms, xr, i);
      SelectUniqueKey(chroms, colors, i);
    }
  }
}

=== FILE: dicts.dfy ===
/** Python dicts with string keys: insertion-ordered, one entry per key. */
module Dicts {
  import opened Results

  type Entry<V> = (string, V)

  predicate DistinctKeys<V>(d: seq<Entry<V>>) {
    forall i, j | 0 <= i < j < |d| :: d[i].0 != d[j].0
  }

  /** A dict is its entries in insertion order; no key occurs twice. */
  type Dict<V> = d: seq<Entry<V>> | DistinctKeys(d) witness []

  /** `list(d.keys())` */
  function Keys<V>(d: seq<Entry<V>>): (ks: seq<string>)
    ensures |ks| == |d|
    ensures forall i | 0 <= i < |d| :: ks[i] == d[i].0
  {
    seq(|d|, i requires 0 <= i < |d| => d[i].0)
  }

  predicate Distinct<T(==)>(xs: seq<T>) {
    forall i, j | 0 <= i < j < |xs| :: xs[i] != xs[j]
  }

  /** Position of the first entry for `k`. */
  function IndexOf<V>(d: seq<Entry<V>>, k: string): (r: Option<nat>)
    ensures r.Some? ==> r.value < |d| && d[r.value].0 == k
    ensures r.Some? ==> forall i | 0 <= i < r.value :: d[i].0 != k
    ensures r.None? <==> k !in Keys(d)
  {
    if |d| == 0 then None
    else if d[0].0 == k then Some(0)
    else
      match IndexOf(d[1..], k)
      case None =>
        assert forall i | 1 <= i < |d| :: d[i].0 == d[1..][i - 1].0;
        None
      case Some(j) => Some(j + 1)
  }

  /** `d[k]`: the value stored under `k`, or KeyError. */
  function Get<V>(d: seq<Entry<V>>, k: string): (r: Result<V>)
    ensures r.Err? <==> k !in Keys(d)
    ensures r.Err? ==> r.error == KeyError
  {
    match IndexOf(d, k)
    case Some(i) => Ok(d[i].1)
    case None => Err(KeyError)
  }

  /** In a dict, looking up the key of entry `i` finds entry `i`. */
  lemma GetAt<V>(d: Dict<V>, i: nat)
    requires i < |d|
    ensures IndexOf(d, d[i].0) == Some(i)
    ensures Get(d, d[i].0) == Ok(d[i].1)
  {
    assert Keys(d)[i] == d[i].0;
    var j := IndexOf(d, d[i].0).value;
    assert d[j].0 == d[i].0;
    assert j == i;
  }

  /** `d[k] = v`: an existing key keeps its position, a new key goes last. */
  function Put<V>(d: Dict<V>, k: string, v: V): (r: Dict<V>)
    ensures Get(r, k) == Ok(v)
    ensures forall k' | k' != k :: Get(r, k') == Get(d, k')
    ensures k in Keys(d) ==> Keys(r) == Keys(d)
    ensures k !in Keys(d) ==> r == d + [(k, v)]
  {
    match IndexOf(d, k)
    case Some(i) =>
      ReplaceAt(d, i, v);
      d[i := (k, v)]
    case None =>
      AppendNew(d, k, v);
      d + [(k, v)]
  }

  /** Overwriting the value of entry `i` keeps the keys and changes only that lookup. */
  lemma ReplaceAt<V>(d: Dict<V>, i: nat, v: V)
    requires i < |d|
    ensures DistinctKeys(d[i := (d[i].0, v)])
    ensures Keys(d[i := (d[i].0, v)]) == Keys(d)
    ensures Get(d[i := (d[i].0, v)], d[i].0) == Ok(v)
    ensures forall k' | k' != d[i].0 :: Get(d[i := (d[i].0, v)], k') == Get(d, k')
  {
    var k := d[i].0;
    var r: Dict<V> := d[i := (k, v)];
    assert Keys(r) == Keys(d);
    GetAt(r, i);
    forall k' | k' != k ensures Get(r, k') == Get(d, k') {
      if j :| 0 <= j < |d| && d[j].0 == k' {
        GetAt(d, j);
        GetAt(r, j);
      }
    }
  }

  /** Appending an entry for a new key adds that lookup and changes no other. */
  lemma AppendNew<V>(d: Dict<V>, k: string, v: V)
    requires k !in Keys(d)
    ensures DistinctKeys(d + [(k, v)])
    ensures Get(d + [(k, v)], k) == Ok(v)
    ensures forall k' | k' != k :: Get(d + [(k, v)], k') == Get(d, k')
  {
    assert forall j | 0 <= j < |d| :: d[j].0 != k by {
      forall j | 0 <= j < |d| ensures d[j].0 != k {
        assert Keys(d)[j] == d[j].0;
      }
    }
    var r: Dict<V> := d + [(k, v)];
    GetAt(r, |d|);
    forall k' | k' != k ensures Get(r, k') == Get(d, k') {
      if j :| 0 <= j < |d| && d[j].0 == k' {
        GetAt(d, j);
        GetAt(r, j);
      } else {
        assert k' !in Keys(r);
      }
    }
  }

  /** `dict(pairs)`, as pandas' `Series.to_dict` builds it: one assignment per pair, in order. */
  function FromPairs<V>(pairs: seq<Entry<V>>): Dict<V>
    decreases |pairs|
  {
    if |pairs| == 0 then []
    else Put(FromPairs(pairs[..|pairs| - 1]), pairs[|pairs| - 1].0, pairs[|pairs| - 1].1)
  }

  /** `d[k] = v` brings in no entry other than `(k, v)`. */
  lemma PutEntries<V>(d: Dict<V>, k: string, v: V)
    ensures forall i | 0 <= i < |Put(d, k, v)| :: Put(d, k, v)[i] in d || Put(d, k, v)[i] == (k, v)
  {
    var r := Put(d, k, v);
    if k in Keys(d) {
      var i := IndexOf(d, k).value;
      assert r == d[i := (k, v)];
    }
  }

  /** Every entry of the dict is one of the pairs. */
  lemma {:induction false} FromPairsEntries<V>(pairs: seq<Entry<V>>)
    ensures forall i | 0 <= i < |FromPairs(pairs)| :: FromPairs(pairs)[i] in pairs
    decreases |pairs|
  {
    if |pairs| > 0 {
      var front := pairs[..|pairs| - 1];
      FromPairsEntries(front);
      PutEntries(FromPairs(front), pairs[|pairs| - 1].0, pairs[|pairs| - 1].1);
      assert forall e | e in front :: e in pairs;
    }
  }

  lemma KeysSnoc<V>(pairs: seq<Entry<V>>)
    requires |pairs| > 0
    ensures Keys(pairs) == Keys(pairs[..|pairs| - 1]) + [pairs[|pairs| - 1].0]
  {
  }

  /** After `d[k] = v`, exactly `k` and the keys of `d` are present. */
  lemma PutKeys<V>(d: Dict<V>, k: string, v: V, q: string)
    ensures Get(Put(d, k, v), q).Ok? <==> q == k || Get(d, q).Ok?
  {
  }

  /** The dict has a key exactly for each name among the pairs. */
  lemma {:induction false} FromPairsKeys<V>(pairs: seq<Entry<V>>, k: string)
    ensures Get(FromPairs(pairs), k).Ok? <==> k in Keys(pairs)
    decreases |pairs|
  {
    if |pairs| > 0 {
      var front := pairs[..|pairs| - 1];
      var last := pairs[|pairs| - 1];
      FromPairsKeys(front, k);
      KeysSnoc(pairs);
      PutKeys(FromPairs(front), last.0, last.1, k);
    }
  }

  /** With no name repeated, the dict holds exactly the pairs, in the same order. */
  lemma {:induction false} FromDistinctPairs<V>(pairs: seq<Entry<V>>)
    requires DistinctKeys(pairs)
    ensures FromPairs(pairs) == pairs
    decreases |pairs|
  {
    if |pairs| > 0 {
      var n := |pairs|;
      var front := pairs[..n - 1];
      var last := pairs[n - 1];
      assert DistinctKeys(front);
      FromDistinctPairs(front);
      assert last.0 !in Keys(front) by {
        forall j | 0 <= j < n - 1 ensures Keys(front)[j] != last.0 {
          assert front[j] == pairs[j];
        }
      }
      assert front + [last] == pairs;
    }
  }

  /** With names repeated, a key's value comes from its last pair. */
  lemma {:induction false} LastPairWins<V>(pairs: seq<Entry<V>>, i: nat)
    requires i < |pairs|
    requires forall j | i < j < |pairs| :: pairs[j].0 != pairs[i].0
    ensures Get(FromPairs(pairs), pairs[i].0) == Ok(pairs[i].1)
    decreases |pairs|
  {
    if i < |pairs| - 1 {
      var front := pairs[..|pairs| - 1];
      LastPairWins(front, i);
    }
  }
}

=== FILE: genomes.dfy ===
/** The helper module's `get_chromsizes`: the same catalog dispatch with no type check on the
    species and no canonical filter. */
module Genomes {
  import opened Results
  import opened Dicts
  import opened Py
  import opened Canonical
  import opened ChromSizes

  /** `get_chromsizes(species, chromsizes)`; `chromsizes` is the table read from the caller's
      file, when one is given. A species that is not a string is simply not in the catalog. */
  function GetChromSizes(species: Obj, chromsizes: Option<seq<SizeRow>>, catalog: Catalog)
    : (r: Result<Dict<Value>>)
    ensures chromsizes.Some? ==> r.Ok?
    ensures (chromsizes.None? && !(species.StrObj? && species.s in SpeciesNames(catalog)))
              ==> r == Err(UnsupportedSpecies)
    ensures (r.Ok? && chromsizes.None?)
              ==> species.StrObj? && CatalogFile(species.s) in catalog
    ensures r.Ok? ==> forall i | 0 <= i < |r.value| :: r.value[i].1.VInt?
    ensures (chromsizes.Some? && r.Ok?)
              ==> && (forall i | 0 <= i < |chromsizes.value| :: chromsizes.value[i].name in Keys(r.value))
                  && (forall i | 0 <= i < |r.value| :: FromRow(r.value[i], chromsizes.value))
    ensures (chromsizes.None? && r.Ok?)
              ==> && species.StrObj? && CatalogFile(species.s) in catalog
                  && (forall i | 0 <= i < |catalog[CatalogFile(species.s)]| ::
                        catalog[CatalogFile(species.s)][i].name in Keys(r.value))
                  && (forall i | 0 <= i < |r.value| :: FromRow(r.value[i], catalog[CatalogFile(species.s)]))
  {
    if chromsizes.Some? then SizeDictEntries(chromsizes.value); Ok(ToSizeDict(chromsizes.value))
    else if !(species.StrObj? && species.s in SpeciesNames(catalog)) then Err(UnsupportedSpecies)
    else if CatalogFile(species.s) in catalog then
      SizeDictEntries(catalog[CatalogFile(species.s)]);
      Ok(ToSizeDict(catalog[CatalogFile(species.s)]))
    else Err(FileNotFound)
  }

  /** The caller's table wins over the catalog whatever the species, even one of another type. */
  lemma ExplicitTableWins(species: Obj, chromsizes: seq<SizeRow>, catalog: Catalog, other: Catalog)
    ensures GetChromSizes(species, Some(chromsizes), catalog)
         == GetChromSizes(NoneObj, Some(chromsizes), other)
  {
  }

  /** The caller's table is turned into a size dict as it is, without filtering. */
  lemma ExplicitTableUsed(species: Obj, chromsizes: seq<SizeRow>, catalog: Catalog)
    ensures GetChromSizes(species, Some(chromsizes), catalog) == Ok(ToSizeDict(chromsizes))
  {
  }

  /** No filtering of the caller's table either: each row is a key holding its length when
      its name is not repeated below it. */
  lemma ExplicitRowKept(species: Obj, chromsizes: seq<SizeRow>, catalog: Catalog, i: nat)
    requires i < |chromsizes|
    requires forall j | i < j < |chromsizes| :: chromsizes[j].name != chromsizes[i].name
    ensures Get(GetChromSizes(species, Some(chromsizes), catalog).value, chromsizes[i].name)
         == Ok(VInt(chromsizes[i].length))
  {
    var pairs := seq(|chromsizes|, k requires 0 <= k < |chromsizes| =>
                       (chromsizes[k].name, VInt(chromsizes[k].length)));
    LastPairWins(pairs, i);
  }

  /** No filtering: every row of the species' file is a key, canonical or not, holding its
      length when its name is not repeated below it. */
  lemma EveryRowKept(species: string, catalog: Catalog, i: nat)
    requires species in SpeciesNames(catalog)
    requires CatalogFile(species) in catalog
    requires i < |catalog[CatalogFile(species)]|
    requires forall j | i < j < |catalog[CatalogFile(species)]| ::
               catalog[CatalogFile(species)][j].name != catalog[CatalogFile(species)][i].name
    ensures GetChromSizes(StrObj(species), None, catalog).Ok?
    ensures Get(GetChromSizes(StrObj(species), None, catalog).value,
                catalog[CatalogFile(species)][i].name)
         == Ok(VInt(catalog[CatalogFile(species)][i].length))
  {
    var rows := catalog[CatalogFile(species)];
    var pairs := seq(|rows|, k requires 0 <= k < |rows| => (rows[k].name, VInt(rows[k].length)));
    LastPairWins(pairs, i);
  }
}

=== FILE: ideogram.dfy ===
/** The ideogram table built from a size dict in `add_regions`: one row per chromosome,
    from 0 to its length, in the dict's colour. */
module Ideogram {
  import opened Results
  import opened Dicts
  import opened Py
  import opened Layout
  import opened Collections

  /** `add_chromsize_colors(sizes_dict, color)`: every value `v` becomes the pair
      `(v, color)`; the keys and their order stay. The Python code rewrites the dict it is
      given and returns it; callers here receive the rewritten dict as the result. */
  function AddChromsizeColors(sizes: Dict<Value>, color: Value): (r: Dict<Value>)
    ensures Keys(r) == Keys(sizes)
    ensures forall k | Get(sizes, k).Ok? :: Get(r, k) == Ok(VPair(Get(sizes, k).value, color))
    ensures forall k | Get(sizes, k).Err? :: Get(r, k).Err?
  {
    var r := seq(|sizes|, i requires 0 <= i < |sizes| => (sizes[i].0, VPair(sizes[i].1, color)));
    assert Keys(r) == Keys(sizes);
    assert forall k | Get(sizes, k).Ok? :: Get(r, k) == Ok(VPair(Get(sizes, k).value, color)) by {
      forall k | Get(sizes, k).Ok? ensures Get(r, k) == Ok(VPair(Get(sizes, k).value, color)) {
        var i := IndexOf(sizes, k).value;
        GetAt(sizes, i);
        GetAt(r, i);
      }
    }
    r
  }

  /** The labels `ideo.columns = ["chrom", "end", "colors", "start"]` assigns. */
  const IdeogramColumns: seq<Value> := [Label("chrom"), Label("end"), Label("colors"), Label("start")]

  /** `pd.DataFrame(chromsize_colors).transpose().reset_index()`, a `start` column of 0,
      and the four labels, for `chromsize_colors == AddChromsizeColors(sizes, color)`: row `i`
      is name, value, colour, 0. An empty dict transposes to a table holding only `index`
      and `start`, which the four labels do not fit. */
  function IdeogramBase(sizes: Dict<Value>, color: Value): (r: Result<Table>)
    ensures r.Ok? <==> |sizes| > 0
    ensures r.Err? ==> r.error == LengthMismatch
  {
    if |sizes| == 0 then Err(LengthMismatch)
    else
      Ok(Frame(IdeogramColumns,
               seq(|sizes|, i requires 0 <= i < |sizes| =>
                 [VStr(sizes[i].0), sizes[i].1, color, VInt(0)])))
  }

  /** Each ideogram row holds the pair that `add_chromsize_colors` stored for its name. */
  lemma IdeogramRowsAreColoredEntries(sizes: Dict<Value>, color: Value, i: nat)
    requires |sizes| > 0 && i < |sizes|
    ensures var row := IdeogramBase(sizes, color).value.rows[i];
            var colored := AddChromsizeColors(sizes, color);
            && row[0] == VStr(colored[i].0)
            && colored[i].1 == VPair(row[1], row[2])
            && row[3] == VInt(0)
  {
    GetAt(sizes, i);
    GetAt(AddChromsizeColors(sizes, color), i);
  }

  /** `ideo['width'] = ideo.end - ideo.start` in the packaged module. */
  function BuildIdeogram(sizes: Dict<Value>, color: Value): (r: Result<Table>)
    ensures |sizes| == 0 ==> r == Err(LengthMismatch)
    ensures r.Err? ==> r.error == LengthMismatch || r.error == TypeError
    ensures r.Ok? ==> |r.value.rows| == |sizes|
                      && r.value.columns == IdeogramColumns + [Label("width")]
  {
    match IdeogramBase(sizes, color)
    case Err(e) => Err(e)
    case Ok(base) => Widened(base)
  }

  /** The rows whose `chrom` cell is one of `names`. */
  function KeepRows(rows: seq<seq<Value>>, c: nat, names: seq<string>): (kept: seq<seq<Value>>)
    requires forall r | 0 <= r < |rows| :: c < |rows[r]|
    ensures forall r | 0 <= r < |kept| :: kept[r] in rows
    ensures forall r | 0 <= r < |rows| :: rows[r] in kept <==> rows[r][c].VStr? && rows[r][c].s in names
    decreases |rows|
  {
    if |rows| == 0 then []
    else
      var front := KeepRows(rows[..|rows| - 1], c, names);
      var last := rows[|rows| - 1];
      var kept := if last[c].VStr? && last[c].s in names then front + [last] else front;
      assert forall r | 0 <= r < |rows| :: rows[r] in kept <==> rows[r][c].VStr? && rows[r][c].s in names by {
        forall r | 0 <= r < |rows|
          ensures rows[r] in kept <==> rows[r][c].VStr? && rows[r][c].s in names
        {
          if r < |rows| - 1 {
            assert rows[..|rows| - 1][r] == rows[r];
          }
          if rows[r] == last {
            assert rows[r][c] == last[c];
          } else {
            assert rows[r] in kept <==> rows[r] in front;
            if rows[r] in front {
              var k :| 0 <= k < |front| && front[k] == rows[r];
              assert front[k] in rows[..|rows| - 1];
              var q :| 0 <= q < |rows| - 1 && rows[..|rows| - 1][q] == rows[r];
            }
          }
        }
      }
      kept
  }

  /** `ideo[ideo.chrom.apply(lambda x: x in chromosome_list)]` in the class: the rows whose
      chromosome is listed, in their order, under the same columns. */
  function KeepListed(t: Table, names: seq<string>): (r: Table)
    requires Label("chrom") in t.columns
    ensures r.columns == t.columns
    ensures forall i | 0 <= i < |r.rows| :: r.rows[i] in t.rows
    ensures forall i | 0 <= i < |t.rows| ::
              (t.rows[i] in r.rows
               <==> (Column(t, Label("chrom")).value[i].VStr? && Column(t, Label("chrom")).value[i].s in names))
  {
    var c := ColumnIndex(t.columns, Label("chrom")).value;
    var kept := KeepRows(t.rows, c, names);
    assert forall r | 0 <= r < |kept| :: |kept[r]| == |t.columns|;
    Frame(t.columns, kept)
  }

  lemma {:induction false} KeepRowsAll(rows: seq<seq<Value>>, c: nat, names: seq<string>)
    requires forall r | 0 <= r < |rows| :: c < |rows[r]|
    requires forall r | 0 <= r < |rows| :: rows[r][c].VStr? && rows[r][c].s in names
    ensures KeepRows(rows, c, names) == rows
    decreases |rows|
  {
    if |rows| > 0 {
      KeepRowsAll(rows[..|rows| - 1], c, names);
      assert rows[..|rows| - 1] + [rows[|rows| - 1]] == rows;
    }
  }

  /** The class's membership filter keeps every ideogram row: the list it tests against is
      the dict's own keys. */
  lemma KeepListedKeepsAll(sizes: Dict<Value>, color: Value)
    requires |sizes| > 0
    ensures KeepListed(IdeogramBase(sizes, color).value, Keys(sizes)) == IdeogramBase(sizes, color).value
  {
    var t := IdeogramBase(sizes, color).value;
    assert ColumnIndex(t.columns, Label("chrom")) == Some(0);
    forall r | 0 <= r < |t.rows| ensures t.rows[r][0].VStr? && t.rows[r][0].s in Keys(sizes) {
      assert Keys(sizes)[r] == sizes[r].0;
    }
    KeepRowsAll(t.rows, 0, Keys(sizes));
  }

  /** The class's ideogram: the filtered rows, then the width column. */
  function ClassIdeogram(sizes: Dict<Value>, color: Value): Result<Table> {
    match IdeogramBase(sizes, color)
    case Err(e) => Err(e)
    case Ok(base) =>
      assert ColumnIndex(base.columns, Label("chrom")) == Some(0);
      Widened(KeepListed(base, Keys(sizes)))
  }

  lemma ClassIdeogramIsBuildIdeogram(sizes: Dict<Value>, color: Value)
    ensures ClassIdeogram(sizes, color) == BuildIdeogram(sizes, color)
  {
    if |sizes| > 0 {
      KeepListedKeepsAll(sizes, color);
    }
  }

  /** Where each of the four labels sits. */
  lemma IdeogramColumnIndices()
    ensures ColumnIndex(IdeogramColumns, Label("chrom")) == Some(0)
    ensures ColumnIndex(IdeogramColumns, Label("end")) == Some(1)
    ensures ColumnIndex(IdeogramColumns, Label("colors")) == Some(2)
    ensures ColumnIndex(IdeogramColumns, Label("start")) == Some(3)
    ensures Label("width") !in IdeogramColumns
  {
    assert Label("chrom") != Label("end") && Label("chrom") != Label("colors");
    assert Label("end") != Label("colors") && Label("start") != Label("colors");
    assert IdeogramColumns[1..][1..][1..] == [Label("start")];
  }

  /** The name and length columns of the ideogram table. */
  lemma IdeogramBaseNamesAndEnds(sizes: Dict<Value>, color: Value)
    requires |sizes| > 0
    ensures var base := IdeogramBase(sizes, color).value;
            && Label("width") !in base.columns && |base.rows| == |sizes|
            && Column(base, Label("chrom")).Ok? && Column(base, Label("end")).Ok?
            && (forall i | 0 <= i < |sizes| :: Column(base, Label("chrom")).value[i] == VStr(sizes[i].0))
            && (forall i | 0 <= i < |sizes| :: Column(base, Label("end")).value[i] == sizes[i].1)
  {
    IdeogramColumnIndices();
  }

  /** The colour and start columns of the ideogram table. */
  lemma IdeogramBaseColorsAndStarts(sizes: Dict<Value>, color: Value)
    requires |sizes| > 0
    ensures var base := IdeogramBase(sizes, color).value;
            && Column(base, Label("colors")).Ok? && Column(base, Label("start")).Ok?
            && (forall i | 0 <= i < |sizes| :: Column(base, Label("colors")).value[i] == color)
            && (forall i | 0 <= i < |sizes| :: Column(base, Label("start")).value[i] == VInt(0))
  {
    IdeogramColumnIndices();
  }

  /** Widening a table whose rows run from 0 to a length, one per entry of `sizes`, gives
      each row that length as its width (a missing length stays missing). */
  lemma WidenedIdeogram(base: Table, sizes: Dict<Value>, color: Value)
    requires |base.rows| == |sizes|
    requires forall i | 0 <= i < |sizes| :: Numeric(sizes[i].1)
    requires Label("width") !in base.columns
    requires Column(base, Label("chrom")).Ok? && Column(base, Label("end")).Ok?
    requires Column(base, Label("colors")).Ok? && Column(base, Label("start")).Ok?
    requires forall i | 0 <= i < |sizes| :: Column(base, Label("chrom")).value[i] == VStr(sizes[i].0)
    requires forall i | 0 <= i < |sizes| :: Column(base, Label("end")).value[i] == sizes[i].1
    requires forall i | 0 <= i < |sizes| :: Column(base, Label("colors")).value[i] == color
    requires forall i | 0 <= i < |sizes| :: Column(base, Label("start")).value[i] == VInt(0)
    ensures Widened(base).Ok?
    ensures var t := Widened(base).value;
            && Label("width") in t.columns && |t.rows| == |sizes|
            && Column(t, Label("chrom")).Ok? && Column(t, Label("start")).Ok?
            && Column(t, Label("width")).Ok? && Column(t, Label("colors")).Ok?
            && (forall i | 0 <= i < |sizes| :: Column(t, Label("chrom")).value[i] == VStr(sizes[i].0))
            && (forall i | 0 <= i < |sizes| :: Column(t, Label("start")).value[i] == VInt(0))
            && (forall i | 0 <= i < |sizes| :: Column(t, Label("width")).value[i] == sizes[i].1)
            && (forall i | 0 <= i < |sizes| :: Column(t, Label("colors")).value[i] == color)
  {
    WidthComputedWhenAbsent(base);
    WidenedColumns(base);
    SetColumnReadsBack(base, Label("width"), Widths(base).value);
  }

  /** The columns of the packaged ideogram of a dict of int or missing lengths. */
  lemma BuildIdeogramColumns(sizes: Dict<Value>, color: Value)
    requires |sizes| > 0
    requires forall i | 0 <= i < |sizes| :: Numeric(sizes[i].1)
    ensures BuildIdeogram(sizes, color).Ok?
    ensures var t := BuildIdeogram(sizes, color).value;
            && Label("width") in t.columns && |t.rows| == |sizes|
            && Column(t, Label("chrom")).Ok? && Column(t, Label("start")).Ok?
            && Column(t, Label("width")).Ok? && Column(t, Label("colors")).Ok?
            && (forall i | 0 <= i < |sizes| :: Column(t, Label("chrom")).value[i] == VStr(sizes[i].0))
            && (forall i | 0 <= i < |sizes| :: Column(t, Label("start")).value[i] == VInt(0))
            && (forall i | 0 <= i < |sizes| :: Column(t, Label("width")).value[i] == sizes[i].1)
            && (forall i | 0 <= i < |sizes| :: Column(t, Label("colors")).value[i] == color)
  {
    IdeogramBaseNamesAndEnds(sizes, color);
    IdeogramBaseColorsAndStarts(sizes, color);
    WidenedIdeogram(IdeogramBase(sizes, color).value, sizes, color);
  }

  /** A table with one row per dict entry, each from 0 over the entry's value in one colour,
      is drawn as one single-bar group per entry on that key's track. */
  lemma OneBarPerEntry(t: Table, sizes: Dict<Value>, color: Value)
    requires |sizes| > 0 && |t.rows| == |sizes|
    requires Label("width") in t.columns
    requires Column(t, Label("chrom")).Ok? && Column(t, Label("start")).Ok?
    requires Column(t, Label("width")).Ok? && Column(t, Label("colors")).Ok?
    requires forall i | 0 <= i < |sizes| :: Column(t, Label("chrom")).value[i] == VStr(sizes[i].0)
    requires forall i | 0 <= i < |sizes| :: Column(t, Label("start")).value[i] == VInt(0)
    requires forall i | 0 <= i < |sizes| :: Column(t, Label("width")).value[i] == sizes[i].1
    requires forall i | 0 <= i < |sizes| :: Column(t, Label("colors")).value[i] == color
    ensures Distinct(Keys(sizes))
    ensures var drawn := ChromosomeCollections(t, LayoutOf(Keys(sizes)).ybase, ChromHeight);
            && drawn.groups.Ok?
            && drawn.after == t
            && |drawn.groups.value| == |sizes|
            && forall i | 0 <= i < |sizes| ::
                 drawn.groups.value[i]
                 == BarGroup(VStr(sizes[i].0), (Baseline(|sizes|, i), ChromHeight),
                             [(VInt(0), sizes[i].1)], [color])
  {
    var names := Keys(sizes);
    KeysOfDictDistinct(sizes);
    var n := |sizes|;
    var y := LayoutOf(names).ybase;
    var chroms := Column(t, Label("chrom")).value;
    var xr := Zip(Column(t, Label("start")).value, Column(t, Label("width")).value);
    var colors := Column(t, Label("colors")).value;
    assert Distinct(chroms) by {
      forall i, j | 0 <= i < j < n ensures chroms[i] != chroms[j] {
        assert names[i] != names[j];
      }
    }
    forall i | 0 <= i < n ensures YOf(y, chroms[i]) == Ok(Baseline(n, i)) {
      LayoutLookup(names, i);
    }
    GroupsOfDistinctRows(chroms, xr, colors, y, ChromHeight);
    GroupsReadColumns(t, y, ChromHeight, 0);
  }

  /** A size dict of int (or missing) lengths, laid out and drawn: one bar per chromosome, in dict order,
      from 0 to its length, on that chromosome's baseline, in the given colour. */
  lemma IdeogramDrawsEveryChromosome(sizes: Dict<Value>, color: Value)
    requires |sizes| > 0
    requires forall i | 0 <= i < |sizes| :: Numeric(sizes[i].1)
    ensures Distinct(Keys(sizes))
    ensures BuildIdeogram(sizes, color).Ok?
    ensures var drawn := ChromosomeCollections(BuildIdeogram(sizes, color).value,
                                               LayoutOf(Keys(sizes)).ybase, ChromHeight);
            && drawn.groups.Ok?
            && drawn.after == BuildIdeogram(sizes, color).value
            && |drawn.groups.value| == |sizes|
            && forall i | 0 <= i < |sizes| ::
                 drawn.groups.value[i]
                 == BarGroup(VStr(sizes[i].0), (Baseline(|sizes|, i), ChromHeight),
                             [(VInt(0), sizes[i].1)], [color])
  {
    BuildIdeogramColumns(sizes, color);
    OneBarPerEntry(BuildIdeogram(sizes, color).value, sizes, color);
  }

  /** A length that is neither an int nor missing (a pair, for a dict decorated twice)
      cannot be drawn: `end - start` raises TypeError. */
  lemma NonIntLengthRaises(sizes: Dict<Value>, color: Value, i: nat)
    requires i < |sizes| && !Numeric(sizes[i].1)
    ensures BuildIdeogram(sizes, color) == Err(TypeError)
  {
    var base := IdeogramBase(sizes, color).value;
    assert ColumnIndex(base.columns, Label("end")) == Some(1);
    assert ColumnIndex(base.columns, Label("start")) == Some(3);
    assert Column(base, Label("end")).value[i] == sizes[i].1;
  }
}

=== FILE: karyopype.dfy ===
/** The `Karyopype` class: it looks the sizes up once, keeps them on the object, and draws
    them with the same layout as the packaged module. Its `add_regions` rewrites the stored
    dict and `plot_chromosomes` never hands its regions on; the corrected variants at the end
    draw from a decorated copy and pass the regions through. */
module KaryopypeClass {
  import opened Results
  import opened Dicts
  import opened Py
  import opened ChromSizes
  import Genomes
  import opened Regions
  import opened Layout
  import opened Collections
  import opened Ideogram
  import opened Plot

  /** `self.species` and `self.chromsizes`. */
  datatype Karyopype = Karyopype(species: string, chromsizes: Dict<Value>)

  /** The drawing on the axes, and the object as the call leaves it. */
  datatype Step = Step(axes: Result<Axes>, after: Karyopype)

  /** `Karyopype(species)`: a species that is not a string is a TypeError before any lookup. */
  function New(species: Obj, catalog: Catalog): (r: Result<Karyopype>)
    ensures !species.StrObj? ==> r == Err(TypeError)
    ensures (species.StrObj? && species.s !in SpeciesNames(catalog)) ==> r == Err(UnsupportedSpecies)
    ensures (species.StrObj? && species.s in SpeciesNames(catalog))
              ==> (r.Ok? <==> CatalogFile(species.s) in catalog)
    ensures r.Ok? ==> r.value.species == species.s
    ensures r.Ok? ==> forall i | 0 <= i < |r.value.chromsizes| :: r.value.chromsizes[i].1.VInt?
    ensures r.Ok? ==> Genomes.GetChromSizes(species, None, catalog) == Ok(r.value.chromsizes)
    ensures r.Ok? ==>
              && CatalogFile(species.s) in catalog
              && (forall i | 0 <= i < |catalog[CatalogFile(species.s)]| ::
                    catalog[CatalogFile(species.s)][i].name in Keys(r.value.chromsizes))
              && (forall i | 0 <= i < |r.value.chromsizes| ::
                    FromRow(r.value.chromsizes[i], catalog[CatalogFile(species.s)]))
  {
    if !species.StrObj? then Err(TypeError)
    else
      match Genomes.GetChromSizes(species, None, catalog)
      case Err(e) => Err(e)
      case Ok(sizes) => Ok(Karyopype(species.s, sizes))
  }

  /** The class's region dispatch, then, unless it says skip, `regions.assign(colors='red')`
      drawn on the tracks `y`. */
  function ClassRegionBars(regions: Obj, reader: Reader, y: Dict<int>): Result<seq<BarGroup>> {
    match ClassRegionInput(regions, reader)
    case Err(e) => Err(e)
    case Ok(parsed) =>
      if parsed.skip then Ok([])
      else ChromosomeCollections(Painted(parsed.regions.table, Red), y, ChromHeight).groups
  }

  /** The class's ideogram bars: the filtered whitesmoke table of the stored sizes, drawn
      on the tracks of the dict's own names. */
  function ClassIdeogramBars(sizes: Dict<Value>): Result<seq<BarGroup>> {
    KeysOfDictDistinct(sizes);
    match ClassIdeogram(sizes, Whitesmoke)
    case Err(e) => Err(e)
    case Ok(ideo) => ChromosomeCollections(ideo, LayoutOf(Keys(sizes)).ybase, ChromHeight).groups
  }

  /** What the class's `add_regions` puts on the axes for the stored sizes `sizes`. */
  function ClassAxes(sizes: Dict<Value>, regions: Obj, reader: Reader): (r: Result<Axes>)
    ensures |sizes| == 0 ==> r == Err(LengthMismatch)
    ensures r.Ok? ==> |sizes| > 0 && forall i | 0 <= i < |sizes| :: Numeric(sizes[i].1)
    ensures r.Ok? ==> r.value.ylabels == Keys(sizes) && |r.value.yticks| == |sizes|
    ensures r.Ok? ==> forall i, j | 0 <= i < j < |sizes| :: r.value.yticks[j] < r.value.yticks[i]
  {
    var names := Keys(sizes);
    KeysOfDictDistinct(sizes);
    var layout := LayoutOf(names);
    TicksFollowListOrder(names);
    ClassIdeogramIsBuildIdeogram(sizes, Whitesmoke);
    var axes :=
      match ClassIdeogramBars(sizes)
      case Err(e) => Err(e)
      case Ok(bars) =>
        match ClassRegionBars(regions, reader, layout.ybase)
        case Err(e) => Err(e)
        case Ok(extra) =>
          match Ticks(names, layout.centres)
          case Err(e) => Err(e)
          case Ok(ticks) => Ok(Axes(bars, extra, ticks, names));
    assert axes.Ok? ==> forall i | 0 <= i < |sizes| :: Numeric(sizes[i].1) by {
      if exists i | 0 <= i < |sizes| :: !Numeric(sizes[i].1) {
        var i :| 0 <= i < |sizes| && !Numeric(sizes[i].1);
        NonIntLengthRaises(sizes, Whitesmoke, i);
      }
    }
    axes
  }

  /** The region bars on the axes are the class's region bars on the dict's tracks. */
  lemma ClassAxesOverlay(sizes: Dict<Value>, regions: Obj, reader: Reader)
    requires ClassAxes(sizes, regions, reader).Ok?
    ensures Distinct(Keys(sizes))
    ensures ClassRegionBars(regions, reader, LayoutOf(Keys(sizes)).ybase)
            == Ok(ClassAxes(sizes, regions, reader).value.overlay)
  {
  }

  /** Without regions the class draws exactly what the packaged `add_regions` draws. */
  lemma ClassDrawsLikePackage(sizes: Dict<Value>, regions: Obj, reader: Reader)
    requires !(regions.StrObj? || regions.PathObj? || regions.FrameObj?)
    ensures ClassAxes(sizes, regions, reader) == Plot.AddRegions(sizes, regions, reader).axes
  {
    ClassIdeogramIsBuildIdeogram(sizes, Whitesmoke);
  }

  /** `kp.add_regions(ax, regions)`: draws, and leaves every stored length paired with
      "whitesmoke". */
  function AddRegions(kp: Karyopype, regions: Obj, reader: Reader): (s: Step)
    ensures s.axes == ClassAxes(kp.chromsizes, regions, reader)
    ensures s.after.species == kp.species
    ensures Keys(s.after.chromsizes) == Keys(kp.chromsizes)
    ensures forall i | 0 <= i < |kp.chromsizes| ::
              s.after.chromsizes[i].1 == VPair(kp.chromsizes[i].1, Whitesmoke)
  {
    var decorated := AddChromsizeColors(kp.chromsizes, Whitesmoke);
    assert forall i | 0 <= i < |kp.chromsizes| :: decorated[i].1 == VPair(kp.chromsizes[i].1, Whitesmoke) by {
      forall i | 0 <= i < |kp.chromsizes| ensures decorated[i].1 == VPair(kp.chromsizes[i].1, Whitesmoke) {
        GetAt(kp.chromsizes, i);
        assert Keys(decorated)[i] == kp.chromsizes[i].0;
        GetAt(decorated, i);
      }
    }
    Step(ClassAxes(kp.chromsizes, regions, reader), kp.(chromsizes := decorated))
  }

  /** `kp.plot_chromosomes(regions)` as written: `add_regions` is called with `regions=None`. */
  function PlotChromosomes(kp: Karyopype, regions: Obj, reader: Reader): (s: Step)
    ensures s.after.species == kp.species && Keys(s.after.chromsizes) == Keys(kp.chromsizes)
    ensures s.axes.Ok? ==> s.axes.value.ylabels == Keys(kp.chromsizes)
  {
    AddRegions(kp, NoneObj, reader)
  }

  /** The regions given to `plot_chromosomes` never reach the axes: any two region arguments
      give the same drawing, with no region bars. */
  lemma PlotChromosomesIgnoresRegions(kp: Karyopype, regions: Obj, other: Obj, reader: Reader)
    ensures PlotChromosomes(kp, regions, reader) == PlotChromosomes(kp, other, reader)
    ensures PlotChromosomes(kp, regions, reader).axes.Ok?
            ==> PlotChromosomes(kp, regions, reader).axes.value.overlay == []
  {
  }

  /** A second plot of the same object fails: the first call left every length paired with
      its colour, the second pairs it again, and `end - start` meets a tuple. */
  lemma SecondPlotFails(kp: Karyopype, regions: Obj, again: Obj, reader: Reader)
    requires |kp.chromsizes| > 0
    requires forall i | 0 <= i < |kp.chromsizes| :: Numeric(kp.chromsizes[i].1)
    ensures PlotChromosomes(kp, regions, reader).axes.Ok?
    ensures PlotChromosomes(PlotChromosomes(kp, regions, reader).after, again, reader).axes
            == Err(TypeError)
  {
    ClassDrawsLikePackage(kp.chromsizes, NoneObj, reader);
    NoRegionsDrawsIdeogramOnly(kp.chromsizes, NoneObj, reader);
    var once := PlotChromosomes(kp, regions, reader).after.chromsizes;
    ClassIdeogramIsBuildIdeogram(once, Whitesmoke);
    NonIntLengthRaises(once, Whitesmoke, 0);
  }

  /** A fresh object of a species whose file has rows plots once and then fails. */
  lemma NewObjectPlotsOnce(species: string, catalog: Catalog, reader: Reader)
    requires species in SpeciesNames(catalog)
    requires CatalogFile(species) in catalog && |catalog[CatalogFile(species)]| > 0
    ensures New(StrObj(species), catalog).Ok?
    ensures var kp := New(StrObj(species), catalog).value;
            && PlotChromosomes(kp, NoneObj, reader).axes.Ok?
            && PlotChromosomes(PlotChromosomes(kp, NoneObj, reader).after, NoneObj, reader).axes
               == Err(TypeError)
  {
    var rows := catalog[CatalogFile(species)];
    Genomes.EveryRowKept(species, catalog, |rows| - 1);
    var kp := New(StrObj(species), catalog).value;
    SecondPlotFails(kp, NoneObj, NoneObj, reader);
  }

  // ---- corrected behaviour ----

  /** `add_regions` drawing from a decorated copy: the object is left as it was. */
  function AddRegionsFixed(kp: Karyopype, regions: Obj, reader: Reader): (s: Step)
    ensures s.after == kp
    ensures s.axes == AddRegions(kp, regions, reader).axes
  {
    Step(ClassAxes(kp.chromsizes, regions, reader), kp)
  }

  /** `plot_chromosomes(regions)` that hands its regions on to the corrected `add_regions`. */
  function PlotChromosomesFixed(kp: Karyopype, regions: Obj, reader: Reader): (s: Step)
    ensures s.after == kp
    ensures s.axes == AddRegions(kp, regions, reader).axes
  {
    AddRegionsFixed(kp, regions, reader)
  }

  /** The corrected plot can be repeated: every call on the object draws the same thing, and
      with int lengths the ideogram never fails. */
  lemma FixedPlotRepeatable(kp: Karyopype, regions: Obj, reader: Reader)
    requires |kp.chromsizes| > 0
    requires forall i | 0 <= i < |kp.chromsizes| :: Numeric(kp.chromsizes[i].1)
    ensures var first := PlotChromosomesFixed(kp, regions, reader);
            PlotChromosomesFixed(first.after, regions, reader) == first
    ensures PlotChromosomesFixed(kp, NoneObj, reader).axes.Ok?
  {
    ClassDrawsLikePackage(kp.chromsizes, NoneObj, reader);
    NoRegionsDrawsIdeogramOnly(kp.chromsizes, NoneObj, reader);
  }

  /** The corrected plot draws the regions it is given: a four-column table whose chromosomes
      all have tracks comes out as red bars, one per row with a chromosome (the first
      cell), each on its chromosome's track. */
  lemma FixedPlotDrawsRegions(kp: Karyopype, t: Table, reader: Reader)
    requires PlotChromosomesFixed(kp, FrameObj(t), reader).axes.Ok?
    ensures Distinct(Keys(kp.chromsizes))
    ensures var ax := PlotChromosomesFixed(kp, FrameObj(t), reader).axes.value;
            && |t.columns| == 4
            && BarCount(ax.overlay) == Present(seq(|t.rows|, i requires 0 <= i < |t.rows| => t.rows[i][0]))
            && forall j | 0 <= j < |ax.overlay| ::
                 && ax.overlay[j].chrom.VStr?
                 && Get(LayoutOf(Keys(kp.chromsizes)).ybase, ax.overlay[j].chrom.s)
                    == Ok(ax.overlay[j].yrange.0)
                 && forall c | c in ax.overlay[j].colors :: c == Red
  {
    KeysOfDictDistinct(kp.chromsizes);
    var y := LayoutOf(Keys(kp.chromsizes)).ybase;
    var gs := PlotChromosomesFixed(kp, FrameObj(t), reader).axes.value.overlay;
    ClassAxesOverlay(kp.chromsizes, FrameObj(t), reader);
    var table := ClassRegionInput(FrameObj(t), reader).value.regions.table;
    assert ChromosomeCollections(Painted(table, Red), y, ChromHeight).groups == Ok(gs);
    PaintedGroupsRed(table, y, gs);
    assert ColumnIndex(table.columns, Label("chrom")) == Some(0);
  }
}

=== FILE: layout.dfy ===
/** The vertical layout of the ideograms in `add_regions`: walking the chromosome list from
    its end, each chromosome gets the current baseline, its label goes at the middle of its
    track, and the baseline rises by track height plus spacing. */
module Layout {
  import opened Results
  import opened Dicts

  const ChromHeight: int := 1   // height of each ideogram
  const ChromSpacing: int := 1  // gap between consecutive ideograms

  /** `chrom_ybase` and `chrom_centers`, both keyed by chromosome name. */
  datatype Layout = Layout(ybase: Dict<int>, centres: Dict<real>)

  /** The baseline of the name `i` places from the front of a list of `n` names. */
  function Baseline(n: nat, i: nat): int
    requires i < n
  {
    (n - 1 - i) * (ChromHeight + ChromSpacing)
  }

  /** `ybase + chrom_height / 2.` */
  function Centre(base: int): real {
    base as real + ChromHeight as real / 2.0
  }

  lemma KeysOfDictDistinct<V>(d: Dict<V>)
    ensures Distinct(Keys(d))
  {
  }

  /** The dicts the reverse walk builds, written out: entry `j` belongs to the name `j`
      places from the end of the list. */
  function LayoutOf(names: seq<string>): (r: Layout)
    requires Distinct(names)
    ensures |r.ybase| == |r.centres| == |names|
    ensures forall j | 0 <= j < |names| ::
              r.centres[j].0 == r.ybase[j].0 && r.centres[j].1 == Centre(r.ybase[j].1)
    ensures forall j, k | 0 <= j < k < |names| :: r.ybase[j].1 < r.ybase[k].1
  {
    var n := |names|;
    var step := ChromHeight + ChromSpacing;
    var ys := seq(n, j requires 0 <= j < n => (names[n - 1 - j], j * step));
    var cs := seq(n, j requires 0 <= j < n => (names[n - 1 - j], Centre(j * step)));
    assert forall j, k | 0 <= j < k < n :: ys[j].0 != ys[k].0 && cs[j].0 != cs[k].0 by {
      forall j, k | 0 <= j < k < n ensures ys[j].0 != ys[k].0 && cs[j].0 != cs[k].0 {
        assert names[n - 1 - k] != names[n - 1 - j];
      }
    }
    Layout(ys, cs)
  }

  /** The loop of `add_regions` over `chromosome_list[::-1]`, with dict assignments. */
  method ComputeLayout<V>(sizes: Dict<V>) returns (layout: Layout)
    ensures Distinct(Keys(sizes)) && layout == LayoutOf(Keys(sizes))
    ensures forall i | 0 <= i < |sizes| ::
              Get(layout.ybase, sizes[i].0) == Ok(Baseline(|sizes|, i))
    ensures forall i | 0 <= i < |sizes| ::
              Get(layout.centres, sizes[i].0) == Ok(Centre(Baseline(|sizes|, i)))
  {
    var names := Keys(sizes);
    KeysOfDictDistinct(sizes);
    var n := |names|;
    var target := LayoutOf(names);
    var ybase: Dict<int> := [];
    var centres: Dict<real> := [];
    var y := 0;
    var i := n;
    while i > 0
      invariant 0 <= i <= n
      invariant y == (n - i) * (ChromHeight + ChromSpacing)
      invariant ybase == target.ybase[..n - i]
      invariant centres == target.centres[..n - i]
    {
      i := i - 1;
      assert names[i] !in Keys(ybase) && names[i] !in Keys(centres) by {
        forall j | 0 <= j < n - 1 - i ensures ybase[j].0 != names[i] && centres[j].0 != names[i] {
          assert ybase[j].0 == names[n - 1 - j];
        }
      }
      assert target.ybase[n - 1 - i] == (names[i], y);
      assert target.ybase[..n - i] == ybase + [(names[i], y)];
      assert target.centres[..n - i] == centres + [(names[i], Centre(y))];
      ybase := Put(ybase, names[i], y);
      centres := Put(centres, names[i], Centre(y));
      y := y + ChromHeight + ChromSpacing;
    }
    assert ybase == target.ybase && centres == target.centres;
    layout := Layout(ybase, centres);
    forall i | 0 <= i < n
      ensures Get(layout.ybase, sizes[i].0) == Ok(Baseline(n, i))
      ensures Get(layout.centres, sizes[i].0) == Ok(Centre(Baseline(n, i)))
    {
      LayoutLookup(names, i);
    }
  }

  /** The layout has a track for exactly the listed names. */
  lemma LayoutKeys(names: seq<string>)
    requires Distinct(names)
    ensures forall k :: k in Keys(LayoutOf(names).ybase) <==> k in names
  {
    var n := |names|;
    var ks := Keys(LayoutOf(names).ybase);
    forall k ensures k in ks <==> k in names {
      if k in ks {
        var j :| 0 <= j < n && ks[j] == k;
        assert names[n - 1 - j] == k;
      }
      if k in names {
        var i :| 0 <= i < n && names[i] == k;
        assert ks[n - 1 - i] == k;
      }
    }
  }

  /** Every name finds its own baseline and centre in the layout. */
  lemma LayoutLookup(names: seq<string>, i: nat)
    requires Distinct(names)
    requires i < |names|
    ensures Get(LayoutOf(names).ybase, names[i]) == Ok(Baseline(|names|, i))
    ensures Get(LayoutOf(names).centres, names[i]) == Ok(Centre(Baseline(|names|, i)))
  {
    var l := LayoutOf(names);
    GetAt(l.ybase, |names| - 1 - i);
    GetAt(l.centres, |names| - 1 - i);
  }

  /** Names earlier in the list sit higher, a full spacing clear of the track below, so no
      two tracks of height `ChromHeight` overlap. */
  lemma TracksDisjoint(names: seq<string>, i: nat, j: nat)
    requires Distinct(names)
    requires i < j < |names|
    ensures Get(LayoutOf(names).ybase, names[i]).Ok? && Get(LayoutOf(names).ybase, names[j]).Ok?
    ensures Get(LayoutOf(names).ybase, names[j]).value + ChromHeight + ChromSpacing
            <= Get(LayoutOf(names).ybase, names[i]).value
  {
    LayoutLookup(names, i);
    LayoutLookup(names, j);
  }

  /** `[chrom_centers[c] for c in chromosome_list]`. */
  function Ticks(names: seq<string>, centres: Dict<real>): (r: Result<seq<real>>)
    ensures r.Ok? <==> forall i | 0 <= i < |names| :: Get(centres, names[i]).Ok?
    ensures r.Ok? ==> |r.value| == |names|
    ensures r.Ok? ==> forall i | 0 <= i < |names| :: Ok(r.value[i]) == Get(centres, names[i])
  {
    if forall i | 0 <= i < |names| :: Get(centres, names[i]).Ok? then
      Ok(seq(|names|, i requires 0 <= i < |names| => Get(centres, names[i]).value))
    else Err(KeyError)
  }

  /** The tick labels are the names in list order, each tick at its own track's middle;
      ticks fall strictly along the list. */
  lemma TicksFollowListOrder(names: seq<string>)
    requires Distinct(names)
    ensures Ticks(names, LayoutOf(names).centres).Ok?
    ensures forall i | 0 <= i < |names| ::
              Ticks(names, LayoutOf(names).centres).value[i] == Centre(Baseline(|names|, i))
    ensures forall i, j | 0 <= i < j < |names| ::
              Ticks(names, LayoutOf(names).centres).value[j]
              < Ticks(names, LayoutOf(names).centres).value[i]
  {
    forall i | 0 <= i < |names| ensures Get(LayoutOf(names).centres, names[i]) == Ok(Centre(Baseline(|names|, i))) {
      LayoutLookup(names, i);
    }
  }
}

=== FILE: plot.dfy ===
/** The packaged module's drawing: `add_regions` lays the chromosomes out, draws one
    whitesmoke bar per chromosome and the caller's regions in red on top, and sets the tick
    labels; `plot_karyopype` looks the sizes up first. What ends up on the axes is recorded
    as the groups of bars handed to it. */
module Plot {
  import opened Results
  import opened Dicts
  import opened Py
  import opened Canonical
  import opened ChromSizes
  import opened Regions
  import opened Layout
  import opened Collections
  import opened Ideogram

  const Whitesmoke: Value := VStr("whitesmoke")
  const Red: Value := VStr("red")

  /** What the axes hold: the ideogram bars, the region bars, the y ticks and their labels. */
  datatype Axes = Axes(ideogram: seq<BarGroup>, overlay: seq<BarGroup>,
                       yticks: seq<real>, ylabels: seq<string>)

  /** The axes, or the exception that stopped the drawing, together with the caller's size
      dict as `add_chromsize_colors` leaves it. */
  datatype Plotted = Plotted(axes: Result<Axes>, sizes: Dict<Value>)

  /** `df['colors'] = color`: the scalar is broadcast down the rows. */
  function Painted(t: Table, color: Value): (r: Table)
    ensures |r.rows| == |t.rows|
    ensures Column(r, Label("colors")).Ok?
    ensures forall i | 0 <= i < |t.rows| :: Column(r, Label("colors")).value[i] == color
    ensures forall l | l != Label("colors") :: Column(r, l) == Column(t, l)
  {
    var vals := seq(|t.rows|, i requires 0 <= i < |t.rows| => color);
    SetColumnReadsBack(t, Label("colors"), vals);
    SetColumn(t, Label("colors"), vals)
  }

  /** The ideogram bars: the whitesmoke table of the sizes, drawn on the tracks of the
      dict's own names. */
  function IdeogramBars(sizes: Dict<Value>): Result<seq<BarGroup>> {
    KeysOfDictDistinct(sizes);
    match BuildIdeogram(sizes, Whitesmoke)
    case Err(e) => Err(e)
    case Ok(ideo) => ChromosomeCollections(ideo, LayoutOf(Keys(sizes)).ybase, ChromHeight).groups
  }

  /** `parse_regions(regions)`, then, unless it says skip, the regions drawn in red on the
      tracks `y`. */
  function RegionBars(regions: Obj, reader: Reader, y: Dict<int>): Result<seq<BarGroup>> {
    match ParseRegions(regions, reader)
    case Err(e) => Err(e)
    case Ok(parsed) =>
      if parsed.skip then Ok([])
      else ChromosomeCollections(Painted(parsed.regions.table, Red), y, ChromHeight).groups
  }

  /** `add_regions(ax, chromsizes, regions)`. The ideogram is drawn before the regions are
      parsed, so an ideogram error wins over a regions error. */
  function AddRegions(sizes: Dict<Value>, regions: Obj, reader: Reader): (p: Plotted)
    ensures Keys(p.sizes) == Keys(sizes)
    ensures forall k | Get(sizes, k).Ok? :: Get(p.sizes, k) == Ok(VPair(Get(sizes, k).value, Whitesmoke))
    ensures |sizes| == 0 ==> p.axes == Err(LengthMismatch)
    ensures p.axes.Ok? ==> |sizes| > 0 && forall i | 0 <= i < |sizes| :: Numeric(sizes[i].1)
    ensures p.axes.Ok? ==> p.axes.value.ylabels == Keys(sizes)
    ensures p.axes.Ok? ==> |p.axes.value.yticks| == |sizes|
    ensures p.axes.Ok? ==> forall i, j | 0 <= i < j < |sizes| ::
                             p.axes.value.yticks[j] < p.axes.value.yticks[i]
  {
    var names := Keys(sizes);
    KeysOfDictDistinct(sizes);
    var layout := LayoutOf(names);
    TicksFollowListOrder(names);
    var axes :=
      match IdeogramBars(sizes)
      case Err(e) => Err(e)
      case Ok(bars) =>
        match RegionBars(regions, reader, layout.ybase)
        case Err(e) => Err(e)
        case Ok(extra) =>
          match Ticks(names, layout.centres)
          case Err(e) => Err(e)
          case Ok(ticks) => Ok(Axes(bars, extra, ticks, names));
    assert axes.Ok? ==> forall i | 0 <= i < |sizes| :: Numeric(sizes[i].1) by {
      if exists i | 0 <= i < |sizes| :: !Numeric(sizes[i].1) {
        var i :| 0 <= i < |sizes| && !Numeric(sizes[i].1);
        NonIntLengthRaises(sizes, Whitesmoke, i);
      }
    }
    Plotted(axes, AddChromsizeColors(sizes, Whitesmoke))
  }

  /** With int (or missing) lengths, the ideogram is always drawn: one whitesmoke bar per chromosome from
      0 to its length, on its own track, and the call fails only through the regions. */
  lemma IdeogramOnEveryTrack(sizes: Dict<Value>, regions: Obj, reader: Reader)
    requires |sizes| > 0
    requires forall i | 0 <= i < |sizes| :: Numeric(sizes[i].1)
    ensures Distinct(Keys(sizes))
    ensures IdeogramBars(sizes).Ok?
    ensures RegionBars(regions, reader, LayoutOf(Keys(sizes)).ybase).Err?
            ==> AddRegions(sizes, regions, reader).axes
                == Err(RegionBars(regions, reader, LayoutOf(Keys(sizes)).ybase).error)
    ensures AddRegions(sizes, regions, reader).axes.Ok?
            <==> RegionBars(regions, reader, LayoutOf(Keys(sizes)).ybase).Ok?
    ensures AddRegions(sizes, regions, reader).axes.Ok? ==>
              var ax := AddRegions(sizes, regions, reader).axes.value;
              && ax.overlay == RegionBars(regions, reader, LayoutOf(Keys(sizes)).ybase).value
              && |ax.ideogram| == |sizes|
              && forall i | 0 <= i < |sizes| ::
                   ax.ideogram[i]
                   == BarGroup(VStr(sizes[i].0), (Baseline(|sizes|, i), ChromHeight),
                               [(VInt(0), sizes[i].1)], [Whitesmoke])
  {
    KeysOfDictDistinct(sizes);
    IdeogramDrawsEveryChromosome(sizes, Whitesmoke);
    TicksFollowListOrder(Keys(sizes));
  }

  /** Without regions (None, a list, any other object) only the ideogram is drawn. */
  lemma NoRegionsDrawsIdeogramOnly(sizes: Dict<Value>, regions: Obj, reader: Reader)
    requires |sizes| > 0
    requires forall i | 0 <= i < |sizes| :: Numeric(sizes[i].1)
    requires !(regions.StrObj? || regions.PathObj? || regions.FrameObj?)
    ensures AddRegions(sizes, regions, reader).axes.Ok?
    ensures AddRegions(sizes, regions, reader).axes.value.overlay == []
  {
    IdeogramOnEveryTrack(sizes, regions, reader);
  }

  /** A table painted red and drawn: one bar per row with a chromosome, each group red and
      on its chromosome's track. */
  lemma PaintedGroupsRed(t: Table, y: Dict<int>, gs: seq<BarGroup>)
    requires ChromosomeCollections(Painted(t, Red), y, ChromHeight).groups == Ok(gs)
    ensures Column(t, Label("chrom")).Ok?
    ensures BarCount(gs) == Present(Column(t, Label("chrom")).value)
    ensures forall j | 0 <= j < |gs| ::
              && gs[j].chrom.VStr?
              && Get(y, gs[j].chrom.s) == Ok(gs[j].yrange.0)
              && forall c | c in gs[j].colors :: c == Red
  {
    var painted := Painted(t, Red);
    OneGroupPerChromosome(painted, y, ChromHeight, gs);
    BarsNumberTheRows(painted, y, ChromHeight, gs);
    if |painted.rows| > 0 {
      GroupRowsInOrder(painted, y, ChromHeight, gs);
      var chroms := Column(painted, Label("chrom")).value;
      var colors := Column(painted, Label("colors")).value;
      forall j | 0 <= j < |gs| ensures forall c | c in gs[j].colors :: c == Red {
        SelectOnlyKey(chroms, gs[j].chrom, colors);
      }
    }
  }

  /** Drawn regions are red, each group sits on its chromosome's track, and every region
      row with a chromosome is one bar. */
  lemma RegionBarsRedOnTheirTracks(regions: Obj, reader: Reader, y: Dict<int>)
    requires RegionBars(regions, reader, y).Ok?
    requires !ParseRegions(regions, reader).value.skip
    ensures var gs := RegionBars(regions, reader, y).value;
            var table := ParseRegions(regions, reader).value.regions.table;
            && Column(table, Label("chrom")).Ok?
            && BarCount(gs) == Present(Column(table, Label("chrom")).value)
            && forall j | 0 <= j < |gs| ::
                 && gs[j].chrom.VStr?
                 && Get(y, gs[j].chrom.s) == Ok(gs[j].yrange.0)
                 && forall c | c in gs[j].colors :: c == Red
  {
    PaintedGroupsRed(ParseRegions(regions, reader).value.regions.table, y,
                     RegionBars(regions, reader, y).value);
  }

  /** The regions `add_regions` draws are red, on the tracks of their chromosomes, one bar
      per region row with a chromosome. */
  lemma RegionsDrawnRedOnTheirTracks(sizes: Dict<Value>, regions: Obj, reader: Reader)
    requires AddRegions(sizes, regions, reader).axes.Ok?
    requires !ParseRegions(regions, reader).value.skip
    ensures Distinct(Keys(sizes))
    ensures var ax := AddRegions(sizes, regions, reader).axes.value;
            var table := ParseRegions(regions, reader).value.regions.table;
            && Column(table, Label("chrom")).Ok?
            && BarCount(ax.overlay) == Present(Column(table, Label("chrom")).value)
            && forall j | 0 <= j < |ax.overlay| ::
                 && ax.overlay[j].chrom.VStr?
                 && Get(LayoutOf(Keys(sizes)).ybase, ax.overlay[j].chrom.s) == Ok(ax.overlay[j].yrange.0)
                 && forall c | c in ax.overlay[j].colors :: c == Red
  {
    IdeogramOnEveryTrack(sizes, regions, reader);
    RegionBarsRedOnTheirTracks(regions, reader, LayoutOf(Keys(sizes)).ybase);
  }

  /** A painted table with a row on a chromosome without a track raises KeyError. */
  lemma PaintedOffTrackRaises(t: Table, y: Dict<int>, i: nat)
    requires i < |t.rows| && Widened(t).Ok?
    requires Column(t, Label("chrom")).Ok?
    requires Column(t, Label("chrom")).value[i].VStr?
    requires Column(t, Label("chrom")).value[i].s !in Keys(y)
    ensures ChromosomeCollections(Painted(t, Red), y, ChromHeight).groups == Err(KeyError)
  {
    var painted := Painted(t, Red);
    assert Widened(painted).Ok? by {
      if Label("width") !in t.columns {
        assert Widths(painted) == Widths(t);
      }
    }
    UnknownChromosomeRaises(painted, y, ChromHeight, i);
  }

  /** A region row on a chromosome without a track raises KeyError; it is not dropped. */
  lemma RegionOffTheTracksRaises(regions: Obj, reader: Reader, y: Dict<int>, i: nat)
    requires ParseRegions(regions, reader).Ok? && !ParseRegions(regions, reader).value.skip
    requires var t := ParseRegions(regions, reader).value.regions.table;
             && i < |t.rows| && Widened(t).Ok?
             && Column(t, Label("chrom")).value[i].VStr?
             && Column(t, Label("chrom")).value[i].s !in Keys(y)
    ensures RegionBars(regions, reader, y) == Err(KeyError)
  {
    PaintedOffTrackRaises(ParseRegions(regions, reader).value.regions.table, y, i);
  }

  /** A region on a chromosome the sizes do not name makes `add_regions` raise KeyError. */
  lemma UnknownRegionChromosomeRaises(sizes: Dict<Value>, regions: Obj, reader: Reader, i: nat)
    requires |sizes| > 0
    requires forall k | 0 <= k < |sizes| :: Numeric(sizes[k].1)
    requires ParseRegions(regions, reader).Ok? && !ParseRegions(regions, reader).value.skip
    requires var t := ParseRegions(regions, reader).value.regions.table;
             && i < |t.rows| && Widened(t).Ok?
             && Column(t, Label("chrom")).value[i].VStr?
             && Column(t, Label("chrom")).value[i].s !in Keys(sizes)
    ensures AddRegions(sizes, regions, reader).axes == Err(KeyError)
  {
    IdeogramOnEveryTrack(sizes, regions, reader);
    var y := LayoutOf(Keys(sizes)).ybase;
    LayoutKeys(Keys(sizes));
    RegionOffTheTracksRaises(regions, reader, y, i);
    assert RegionBars(regions, reader, y) == Err(KeyError);
  }

  /** `plot_karyopype(species, regions)`: the catalog sizes of the species, then
      `add_regions`. Titles, axis labels and saving the figure are not modelled. */
  function PlotKaryopype(species: Obj, regions: Obj, catalog: Catalog, reader: Reader)
    : (r: Result<Axes>)
    ensures !species.StrObj? ==> r == Err(TypeError)
    ensures (species.StrObj? && species.s !in SpeciesNames(catalog)) ==> r == Err(UnsupportedSpecies)
    ensures r.Ok? ==> Distinct(r.value.ylabels)
                      && forall i | 0 <= i < |r.value.ylabels| :: IsCanonical(r.value.ylabels[i])
  {
    match GetChromSizes(species, None, true, catalog)
    case Err(e) => Err(e)
    case Ok(sizes) =>
      KeysOfDictDistinct(sizes);
      AddRegions(sizes, regions, reader).axes
  }

  /** A known species whose file has a canonical chromosome plots without regions. */
  lemma KnownSpeciesPlots(species: string, catalog: Catalog, reader: Reader, i: nat)
    requires species in SpeciesNames(catalog)
    requires CatalogFile(species) in catalog
    requires i < |catalog[CatalogFile(species)]|
    requires IsCanonical(catalog[CatalogFile(species)][i].name)
    ensures PlotKaryopype(StrObj(species), NoneObj, catalog, reader).Ok?
    ensures catalog[CatalogFile(species)][i].name
            in PlotKaryopype(StrObj(species), NoneObj, catalog, reader).value.ylabels
  {
    CanonicalRowKept(species, catalog, i);
    var sizes := GetChromSizes(StrObj(species), None, true, catalog).value;
    NoRegionsDrawsIdeogramOnly(sizes, NoneObj, reader);
  }
}

=== FILE: py.dfy ===
/** The Python and pandas values the plotting code handles. */
module Py {
  import opened Results

  /** A cell of a table, a column label, or a value of a size dict. `VPair` is a 2-tuple. */
  datatype Value = VNone | VInt(i: int) | VStr(s: string) | VPair(fst: Value, snd: Value)

  /** A DataFrame: column labels and rows of cells. */
  datatype Frame = Frame(columns: seq<Value>, rows: seq<seq<Value>>)

  predicate WellFormed(f: Frame) {
    forall r | 0 <= r < |f.rows| :: |f.rows[r]| == |f.columns|
  }

  /** pandas keeps a DataFrame rectangular: every row has one cell per column. */
  type Table = f: Frame | WellFormed(f) witness Frame([], [])

  /** An argument a caller may pass where the code accepts "anything". */
  datatype Obj =
    | NoneObj
    | StrObj(s: string)
    | PathObj(path: string)     // a `pathlib.PosixPath`
    | FrameObj(table: Table)    // a `pandas.DataFrame`
    | ListObj(items: seq<Obj>)
    | OtherObj                  // any object of another class (int, dict, ...)

  /** The separators handed to `pd.read_csv`. */
  datatype Sep = Tab | Space

  /** The file system as `pd.read_csv(path, sep=..., header=None)` sees it: the table read
      from each readable (path, separator); a path that is absent cannot be read. */
  type Reader = map<(string, Sep), Table>

  function ReadCsv(reader: Reader, path: string, sep: Sep): (r: Result<Table>)
    ensures r.Ok? <==> (path, sep) in reader
    ensures r.Err? ==> r.error == FileNotFound
  {
    if (path, sep) in reader then Ok(reader[(path, sep)]) else Err(FileNotFound)
  }

  function Label(name: string): Value {
    VStr(name)
  }

  /** Position of the first column labelled `l`. */
  function ColumnIndex(labels: seq<Value>, l: Value): (r: Option<nat>)
    ensures r.Some? ==> r.value < |labels| && labels[r.value] == l
    ensures r.Some? ==> l !in labels[..r.value]
    ensures r.None? <==> l !in labels
  {
    if |labels| == 0 then None
    else if labels[0] == l then Some(0)
    else
      match ColumnIndex(labels[1..], l)
      case None => None
      case Some(j) =>
        assert labels[..j + 1] == [labels[0]] + labels[1..][..j];
        Some(j + 1)
  }

  /** `df[l]`: the cells of column `l`, top to bottom, or KeyError. */
  function Column(t: Table, l: Value): (r: Result<seq<Value>>)
    ensures r.Ok? <==> l in t.columns
    ensures r.Err? ==> r.error == KeyError
    ensures r.Ok? ==> |r.value| == |t.rows|
  {
    match ColumnIndex(t.columns, l)
    case None => Err(KeyError)
    case Some(c) => Ok(seq(|t.rows|, i requires 0 <= i < |t.rows| => t.rows[i][c]))
  }

  /** `df.columns = labels`: relabel positionally; the label list must fit exactly. */
  function Relabel(t: Table, labels: seq<Value>): (r: Result<Table>)
    ensures r.Ok? <==> |labels| == |t.columns|
    ensures r.Err? ==> r.error == LengthMismatch
    ensures r.Ok? ==> r.value.columns == labels && r.value.rows == t.rows
  {
    if |labels| == |t.columns| then Ok(Frame(labels, t.rows)) else Err(LengthMismatch)
  }

  /** `df[l] = vals`: overwrite column `l` where it exists, else append it on the right. */
  function SetColumn(t: Table, l: Value, vals: seq<Value>): (r: Table)
    requires |vals| == |t.rows|
    ensures l in t.columns ==> r.columns == t.columns
    ensures l !in t.columns ==> r.columns == t.columns + [l]
    ensures |r.rows| == |t.rows|
  {
    match ColumnIndex(t.columns, l)
    case Some(c) =>
      Frame(t.columns, seq(|t.rows|, i requires 0 <= i < |t.rows| => t.rows[i][c := vals[i]]))
    case None =>
      Frame(t.columns + [l], seq(|t.rows|, i requires 0 <= i < |t.rows| => t.rows[i] + [vals[i]]))
  }

  /** After `df[l] = vals`, column `l` reads back `vals` and every other column is as before. */
  lemma SetColumnReadsBack(t: Table, l: Value, vals: seq<Value>)
    requires |vals| == |t.rows|
    ensures Column(SetColumn(t, l, vals), l) == Ok(vals)
    ensures forall l' | l' != l :: Column(SetColumn(t, l, vals), l') == Column(t, l')
  {
    var r := SetColumn(t, l, vals);
    if l !in t.columns {
      ColumnIndexAppend(t.columns, l, l);
    }
    assert Column(r, l).value == vals;
    forall l' | l' != l ensures Column(r, l') == Column(t, l') {
      if l !in t.columns {
        ColumnIndexAppend(t.columns, l, l');
      }
      if l' in t.columns {
        assert Column(r, l').value == Column(t, l').value;
      }
    }
  }

  lemma {:induction false} ColumnIndexAppend(labels: seq<Value>, l: Value, q: Value)
    requires l !in labels
    ensures q != l ==> ColumnIndex(labels + [l], q) == ColumnIndex(labels, q)
    ensures ColumnIndex(labels + [l], l) == Some(|labels|)
  {
    if |labels| > 0 {
      ColumnIndexAppend(labels[1..], l, q);
      assert (labels + [l])[1..] == labels[1..] + [l];
    }
  }

  /** `del df[l]` for a label held by one column: that column goes, and every other
      column keeps its cells. */
  function DropColumn(t: Table, l: Value): (r: Table)
    ensures l !in t.columns ==> r == t
    ensures l in t.columns ==> |r.columns| + 1 == |t.columns| && |r.rows| == |t.rows|
    ensures forall q | q in r.columns :: q in t.columns
    ensures forall q | q != l :: Column(r, q) == Column(t, q)
    ensures (l in t.columns && multiset(t.columns)[l] == 1) ==> l !in r.columns
  {
    match ColumnIndex(t.columns, l)
    case None => t
    case Some(c) =>
      DropAtKeepsOthers(t, c);
      DropAtRemoves(t, c);
      DropAt(t, c)
  }

  /** The table without its column at position `c`. */
  function DropAt(t: Table, c: nat): (r: Table)
    requires c < |t.columns|
    ensures r.columns == t.columns[..c] + t.columns[c + 1..]
    ensures |r.rows| == |t.rows|
    ensures forall i, k | 0 <= i < |t.rows| && 0 <= k < |r.columns| ::
              r.rows[i][k] == t.rows[i][if k < c then k else k + 1]
  {
    Frame(t.columns[..c] + t.columns[c + 1..],
          seq(|t.rows|, i requires 0 <= i < |t.rows| => t.rows[i][..c] + t.rows[i][c + 1..]))
  }

  /** Dropping the column at `c` leaves every column with another label as it was. */
  lemma DropAtKeepsOthers(t: Table, c: nat)
    requires c < |t.columns|
    ensures forall q | q != t.columns[c] :: Column(DropAt(t, c), q) == Column(t, q)
  {
    forall q | q != t.columns[c] ensures Column(DropAt(t, c), q) == Column(t, q) {
      DropAtKeeps(t, c, q);
    }
  }

  lemma DropAtKeeps(t: Table, c: nat, q: Value)
    requires c < |t.columns| && t.columns[c] != q
    ensures Column(DropAt(t, c), q) == Column(t, q)
  {
    var r := DropAt(t, c);
    ColumnIndexRemove(t.columns, c, q);
    if q in t.columns {
      var k := ColumnIndex(t.columns, q).value;
      var k' := if k < c then k else k - 1;
      assert ColumnIndex(r.columns, q) == Some(k');
      assert forall i | 0 <= i < |t.rows| :: r.rows[i][k'] == t.rows[i][k];
      assert Column(r, q).value == Column(t, q).value;
    }
  }

  /** A label held only at `c` is gone once that column is dropped. */
  lemma DropAtRemoves(t: Table, c: nat)
    requires c < |t.columns|
    ensures multiset(t.columns)[t.columns[c]] == 1 ==> t.columns[c] !in DropAt(t, c).columns
  {
    assert t.columns == t.columns[..c] + [t.columns[c]] + t.columns[c + 1..];
  }

  /** Deleting the label at `c` shifts the positions of the labels after it down by one. */
  lemma ColumnIndexRemove(labels: seq<Value>, c: nat, q: Value)
    requires c < |labels| && labels[c] != q
    ensures ColumnIndex(labels[..c] + labels[c + 1..], q) == ShiftPast(ColumnIndex(labels, q), c)
  {
    var rest := labels[..c] + labels[c + 1..];
    match ColumnIndex(labels, q)
    case None =>
      assert q !in rest;
    case Some(k) =>
      var k' := if k < c then k else k - 1;
      assert rest[k'] == q;
      forall x | x in rest[..k'] ensures x in labels[..k] {
        var m :| 0 <= m < k' && rest[..k'][m] == x;
        if m < c {
          assert labels[..k][m] == x;
        } else {
          assert labels[..k][m + 1] == x;
        }
      }
      ColumnIndexFirst(rest, k', q);
  }

  /** The first position holding `q` is the one `ColumnIndex` finds. */
  lemma ColumnIndexFirst(labels: seq<Value>, k: nat, q: Value)
    requires k < |labels| && labels[k] == q && q !in labels[..k]
    ensures ColumnIndex(labels, q) == Some(k)
  {
    var j := ColumnIndex(labels, q).value;
    assert forall m | 0 <= m < k :: labels[..k][m] == labels[m];
    assert forall m | 0 <= m < j :: labels[..j][m] == labels[m];
  }

  /** A column position once the column at `c` has gone: positions after `c` move down one. */
  function ShiftPast(o: Option<nat>, c: nat): Option<nat>
  {
    match o
    case None => None
    case Some(k) => if k <= c then Some(k) else Some(k - 1)
  }


  /** Adding a fresh column and deleting it again gives back the table. */
  lemma AppendThenDrop(t: Table, l: Value, vals: seq<Value>)
    requires |vals| == |t.rows|
    requires l !in t.columns
    ensures DropColumn(SetColumn(t, l, vals), l) == t
  {
    var s := SetColumn(t, l, vals);
    ColumnIndexAppend(t.columns, l, l);
    var d := DropColumn(s, l);
    assert d.columns == t.columns;
    assert forall i | 0 <= i < |t.rows| :: d.rows[i] == t.rows[i];
  }

  /** A cell that pandas' column arithmetic accepts against an int: an int, or a missing
      value (`None` or NaN), which the arithmetic masks instead of raising. */
  predicate Numeric(v: Value) {
    v.VInt? || v.VNone?
  }

  /** One row of `df[a] - df[b]`. pandas' masked retry never evaluates a row with a missing
      operand: that row is missing (NaN) whatever the other cell holds. Of the rows it does
      evaluate, two ints subtract and anything else raises TypeError. */
  function Minus(a: Value, b: Value): (r: Result<Value>)
    ensures r.Ok? <==> a.VNone? || b.VNone? || (a.VInt? && b.VInt?)
    ensures r.Ok? && a.VInt? && b.VInt? ==> r.value.VInt? && r.value.i + b.i == a.i
    ensures (a.VNone? || b.VNone?) ==> r == Ok(VNone)
    ensures r.Err? ==> r.error == TypeError
  {
    if a.VNone? || b.VNone? then Ok(VNone)
    else if a.VInt? && b.VInt? then Ok(VInt(a.i - b.i))
    else Err(TypeError)
  }

  /** `df[a] - df[b]` on two columns, element by element. When plain subtraction fails,
      pandas retries on the rows where neither cell is missing and leaves the others NaN,
      so only a row whose two cells are present and not both ints makes the whole column
      raise. */
  function MinusAll(xs: seq<Value>, ys: seq<Value>): (r: Result<seq<Value>>)
    requires |xs| == |ys|
    ensures r.Ok? <==> forall i | 0 <= i < |xs| ::
                         xs[i].VNone? || ys[i].VNone? || (xs[i].VInt? && ys[i].VInt?)
    ensures r.Ok? ==> |r.value| == |xs| && forall i | 0 <= i < |xs| :: Ok(r.value[i]) == Minus(xs[i], ys[i])
    ensures r.Err? ==> r.error == TypeError
  {
    if forall i | 0 <= i < |xs| :: Minus(xs[i], ys[i]).Ok? then
      Ok(seq(|xs|, i requires 0 <= i < |xs| => Minus(xs[i], ys[i]).value))
    else Err(TypeError)
  }
}

=== FILE: regions.dfy ===
/** Deciding what the `regions` argument holds. The packaged `parse_regions` reads a path
    (string or `PosixPath`) space-separated and expects three columns; the class's
    `add_regions` reads only a string path, tab-separated, and expects four. */
module Regions {
  import opened Results
  import opened Py

  const ThreeColumns: seq<Value> := [Label("chrom"), Label("start"), Label("end")]
  const FourColumns: seq<Value> := ThreeColumns + [Label("width")]

  /** The normalised argument and whether there is nothing to draw (`skip`). */
  datatype Parsed = Parsed(regions: Obj, skip: bool)

  /** The relabelled table, or the label-length error. */
  function Relabelled(t: Result<Table>, labels: seq<Value>): (r: Result<Parsed>)
    ensures t.Err? ==> r == Err(t.error)
    ensures t.Ok? ==> (r.Ok? <==> |t.value.columns| == |labels|)
    ensures r.Ok? ==> !r.value.skip && r.value.regions.FrameObj?
    ensures r.Ok? ==> r.value.regions.table == Frame(labels, t.value.rows)
  {
    if t.Err? then Err(t.error)
    else
      match Relabel(t.value, labels)
      case Ok(u) => Ok(Parsed(FrameObj(u), false))
      case Err(e) => Err(e)
  }

  /** `parse_regions(regions)` of the packaged module. */
  function ParseRegions(regions: Obj, reader: Reader): (r: Result<Parsed>)
    ensures (regions.StrObj? || regions.PathObj? || regions.FrameObj?)
              ==> (r.Ok? ==> !r.value.skip && r.value.regions.FrameObj?
                               && r.value.regions.table.columns == ThreeColumns)
    ensures (!(regions.StrObj? || regions.PathObj? || regions.FrameObj?))
              ==> r == Ok(Parsed(regions, true))
    ensures (regions.FrameObj?)
              ==> (r.Ok? <==> |regions.table.columns| == 3)
    ensures (r.Ok? && !r.value.skip) ==> r.value.regions.FrameObj?
    ensures (regions.FrameObj? && r.Ok?)
              ==> r.value.regions.table.rows == regions.table.rows
  {
    match regions
    case StrObj(p) => Relabelled(ReadCsv(reader, p, Space), ThreeColumns)
    case PathObj(p) => Relabelled(ReadCsv(reader, p, Space), ThreeColumns)
    case FrameObj(t) => Relabelled(Ok(t), ThreeColumns)
    case _ => Ok(Parsed(regions, true))
  }

  /** A string and a `PosixPath` naming the same file give the same result. */
  lemma StringAndPathAgree(p: string, reader: Reader)
    ensures ParseRegions(StrObj(p), reader) == ParseRegions(PathObj(p), reader)
  {
  }

  /** A path to a readable space-separated table of three columns yields that table's rows
      under the labels chrom, start, end; a missing file raises. */
  lemma ParsePathRows(p: string, reader: Reader)
    ensures (p, Space) !in reader ==> ParseRegions(StrObj(p), reader) == Err(FileNotFound)
    ensures ((p, Space) in reader && |reader[(p, Space)].columns| == 3)
              ==> ParseRegions(StrObj(p), reader)
                  == Ok(Parsed(FrameObj(Frame(ThreeColumns, reader[(p, Space)].rows)), false))
    ensures ((p, Space) in reader && |reader[(p, Space)].columns| != 3)
              ==> ParseRegions(StrObj(p), reader) == Err(LengthMismatch)
  {
  }

  /** The region dispatch inside the class's `add_regions`. */
  function ClassRegionInput(regions: Obj, reader: Reader): (r: Result<Parsed>)
    ensures (regions.StrObj? || regions.FrameObj?)
              ==> (r.Ok? ==> !r.value.skip && r.value.regions.FrameObj?
                               && r.value.regions.table.columns == FourColumns)
    ensures !(regions.StrObj? || regions.FrameObj?) ==> r == Ok(Parsed(regions, true))
    ensures regions.FrameObj? ==> (r.Ok? <==> |regions.table.columns| == 4)
    ensures (r.Ok? && !r.value.skip) ==> r.value.regions.FrameObj?
    ensures regions.StrObj? ==> (r.Ok? <==> ((regions.s, Tab) in reader
                                            && |reader[(regions.s, Tab)].columns| == 4))
    ensures (regions.FrameObj? && r.Ok?)
              ==> r.value.regions.table == Frame(FourColumns, regions.table.rows)
    ensures (regions.StrObj? && r.Ok?)
              ==> r.value.regions.table == Frame(FourColumns, reader[(regions.s, Tab)].rows)
  {
    match regions
    case StrObj(p) => Relabelled(ReadCsv(reader, p, Tab), FourColumns)
    case FrameObj(t) => Relabelled(Ok(t), FourColumns)
    case _ => Ok(Parsed(regions, true))
  }

  /** A `PosixPath` that the packaged module would draw from is "no regions" to the class. */
  lemma PathSkippedByClass(p: string, reader: Reader)
    requires (p, Space) in reader && |reader[(p, Space)].columns| == 3
    ensures ParseRegions(PathObj(p), reader).Ok? && !ParseRegions(PathObj(p), reader).value.skip
    ensures ClassRegionInput(PathObj(p), reader) == Ok(Parsed(PathObj(p), true))
  {
  }
}

=== FILE: results.dfy ===
/** Outcomes of the modelled Python code: a value, or the exception it raises. */
module Results {

  /** The exceptions the modelled code can raise, named after their Python classes. */
  datatype Error =
    | TypeError          // a failed `isinstance` check, or `-` on operands that are not both ints
    | UnsupportedSpecies // the bare `Exception` for a species missing from the catalog
    | FileNotFound       // a table file that cannot be read
    | LengthMismatch     // pandas' ValueError when a label list does not fit the column count
    | KeyError           // a dict key or DataFrame column that is not there

  datatype Option<+T> = None | Some(value: T)

  datatype Result<+T> = Ok(value: T) | Err(error: Error)
}
